=== FILE: README.md ===
# PlantUML build-time diagram cache, modelled in Dafny

This project models the core of `bin/generate-plantuml-svgs.js`: the build
step that finds `{{< plantuml >}} … {{< /plantuml >}}` shortcodes in the
Markdown pages of a Hugo site and renders each diagram to an SVG under
`static/diagrams`. The rendered files serve as a content-addressed cache.
The model covers five things:

- **Fingerprint (`Text`, `Fingerprint`).** `getContentHash` trims the block
  text the way JavaScript's `String.prototype.trim` does. It then keeps the
  first eight hexadecimal characters of its SHA-256 digest.
- **Extraction (`Shortcodes`).** The global regular-expression scan with the
  lazy body. For each match, at most one opening `` ```plantuml `` fence and
  at most one closing fence are removed.
- **Naming (`Naming`).** `<page base name>-<hash>.svg`, served as
  `/diagrams/<name>`.
- **Cache decision, render and reconcile (`Disk`, `Render`).**
  `processPlantUMLBlock` is a function over an immutable file system:
  - the published directory;
  - the staging directory;
  - the renderer's output directory, as a listing.
- **Counting loop (`Driver`).** `generateSVGsOnly` runs every block of every
  page in order and counts the results that are not `null`.

The external parts are parameters:

- **SHA-256:** any function that returns 64 lowercase hexadecimal characters.
- **The `java -jar plantuml.jar` run:** any function from the staged text and
  the number of earlier runs to the files the run writes and whether it
  exited cleanly.

Pages are given as (path, text) pairs.

The model follows the code as written, including these behaviours one
might not expect:

- The staged `.puml` file receives the untrimmed block text, not the trimmed
  text (line 80).
- A render that exits cleanly but leaves no SVG still returns the public
  path. The loop counts it, and the staged input stays where it is
  (lines 89-104).
- Cache hits count as well. When the first run published every block's
  file (for example, when the renderer always succeeds with an SVG), a
  second run over unchanged pages reports the number of blocks, not 0,
  runs the renderer zero times and changes no file
  (`Driver.AllHitsChangeNothing`, `Driver.RerunRendersNothing`). A block
  whose render failed or left no SVG has no published file, so the next
  run renders it again (line 66).
- The renderer's output directory is not emptied before a render.
  Cleanup after a render removes only the SVG names listed, and the staged
  input. Other files stay. An SVG left behind by an earlier failed render
  can be published under a later block's name if it is listed first
  (`Render.LeftoverSvgIsPublished`).
- A failed render leaves the staged input and whatever the renderer wrote
  (lines 106-109).

## Model

| member | source | states |
|---|---|---|
| Text.Trim | bin/generate-plantuml-svgs.js:31 | the trimmed text has no whitespace at either end, and the input is that text with a run of whitespace before and after it |
| Text.TrimUnique | bin/generate-plantuml-svgs.js:31 | any split of a text into whitespace, a core without edge whitespace, and whitespace has that core as its trim |
| Text.TrimIdempotent | bin/generate-plantuml-svgs.js:31 | trimming twice is trimming once |
| Text.TrimOfUntrimmable | bin/generate-plantuml-svgs.js:31 | a text whose ends are not whitespace is its own trim |
| Text.TrimIgnoresPadding | bin/generate-plantuml-svgs.js:31 | surrounding a text with whitespace does not change its trim |
| Fingerprint.ContentHash | bin/generate-plantuml-svgs.js:30-34 | the fingerprint has eight characters, all lowercase hex, and is a prefix of the digest of the trimmed text |
| Fingerprint.ContentHashOfTrimmed | bin/generate-plantuml-svgs.js:30-34 | the fingerprint of a text equals the fingerprint of its trim |
| Fingerprint.ContentHashIgnoresPadding | bin/generate-plantuml-svgs.js:30-34 | texts that differ only in surrounding whitespace share a fingerprint, whatever SHA-256 returns |
| Fingerprint.PaddedArrowSharesFingerprint | bin/generate-plantuml-svgs.js:30-34 | `"  A -> B  "` and `"A -> B"` get the same fingerprint |
| Shortcodes.OpenerEnd | bin/generate-plantuml-svgs.js:40 | where the opener `{{<\s*plantuml[^>]*>}}` starting at a position ends, if it matches there; the end leaves room for all of the opener's literals |
| Shortcodes.CloserEnd | bin/generate-plantuml-svgs.js:40 | where the closer `{{<\s*\/plantuml\s*>}}` starting at a position ends, if it matches there; the end leaves room for all of the closer's literals |
| Shortcodes.OpenerEndIsSpan | bin/generate-plantuml-svgs.js:40 | the opener ends at a given position exactly when the text up to there splits into `{{<`, whitespace, `plantuml`, characters other than `>`, and `>}}`, so there is no other way to parse it |
| Shortcodes.CloserEndIsSpan | bin/generate-plantuml-svgs.js:40 | the closer ends at a given position exactly when the text up to there splits into `{{<`, whitespace, `/plantuml`, whitespace and `>}}` |
| Shortcodes.FindChar | bin/generate-plantuml-svgs.js:40 | the greedy `[^>]*` stops at the first `>` at or after the start, and there is none before it |
| Shortcodes.FirstCloser | bin/generate-plantuml-svgs.js:40 | the lazy body ends at the first closing shortcode at or after its start, and no closer starts earlier |
| Shortcodes.MatchAt | bin/generate-plantuml-svgs.js:40 | a match at a position starts there, and its capture group lies strictly inside it |
| Shortcodes.MatchAtIsLazy | bin/generate-plantuml-svgs.js:40 | a match is an opener, then a body with no closer inside it, then a closer; a position with an opener has no match exactly when no closer follows |
| Shortcodes.Matches | bin/generate-plantuml-svgs.js:40 | the shortcode pattern tried at each position is a well-formed matcher |
| Shortcodes.FindMatch | bin/generate-plantuml-svgs.js:43 | one `exec` from `lastIndex` finds the leftmost match at or after it, or reports that no match starts there or later |
| Shortcodes.ScanFrom | bin/generate-plantuml-svgs.js:43-53 | the `exec` loop yields matches that are each the leftmost one after the end of the previous one, with no match after the last |
| Shortcodes.ScanCons | bin/generate-plantuml-svgs.js:43-53 | a leftmost match followed by the leftmost scan from its end is the leftmost scan |
| Shortcodes.ScanOrdered | bin/generate-plantuml-svgs.js:43-53 | the matches of the scan come in strictly increasing position and do not overlap |
| Shortcodes.LeftmostScanUnique | bin/generate-plantuml-svgs.js:43-53 | every sequence with the leftmost-scan property equals what the loop produces |
| Shortcodes.StripFenceOpener | bin/generate-plantuml-svgs.js:46 | removes the longest prefix that `^```plantuml\s*\n` matches, or nothing when there is none |
| Shortcodes.StripFenceCloser | bin/generate-plantuml-svgs.js:46 | removes exactly one trailing newline-and-fence when present, otherwise nothing |
| Shortcodes.StripFence | bin/generate-plantuml-svgs.js:46 | a body without either fence is kept verbatim, untrimmed |
| Shortcodes.StripFenceUnwraps | bin/generate-plantuml-svgs.js:44-50 | fencing a non-blank diagram whose leading whitespace holds no line feed, then cleaning it, gives the diagram back |
| Shortcodes.NoLongerOpener | bin/generate-plantuml-svgs.js:46 | after an opener, such a diagram stops the opener pattern from matching a longer prefix |
| Shortcodes.BlocksOfScan | bin/generate-plantuml-svgs.js:48-52 | each block of a leftmost scan records its match's full text, cleaned body and index |
| Shortcodes.ExtractPlantUmlShortcodes | bin/generate-plantuml-svgs.js:37-56 | the blocks are exactly those of the leftmost scan from the start of the page (which `LeftmostScanUnique` shows is what the `exec` loop finds): every block is the block of a match, blocks are in order and do not overlap, and there are none exactly when the page has no complete shortcode pair |
| Shortcodes.ExtractIsTheScan | bin/generate-plantuml-svgs.js:43-55 | for every leftmost scan of the page, extraction returns exactly the blocks of its matches, in order, none left out |
| Naming.LastSegment | bin/generate-plantuml-svgs.js:61 | the last segment is the suffix of the path after its last `/` |
| Naming.BaseName | bin/generate-plantuml-svgs.js:61 | the base name is the last segment, without `.md` when it ends with `.md` and is longer than it |
| Naming.BaseNameOfMarkdownPage | bin/generate-plantuml-svgs.js:61 | for a page `<dir>/<stem>.md` the base name is the stem |
| Naming.OutputName | bin/generate-plantuml-svgs.js:62 | the base name and the eight-character hash can be read back out of the output name |
| Naming.OutputNameInjective | bin/generate-plantuml-svgs.js:62 | two output names are equal only when the base names and the hashes are equal, even though base names may contain `-` |
| Naming.PublicPath | bin/generate-plantuml-svgs.js:67 | the public path is `/diagrams/` followed by exactly the output name |
| Disk.Lookup | bin/generate-plantuml-svgs.js:98 | a name is found exactly when some entry of the directory has it |
| Disk.WriteFile | bin/generate-plantuml-svgs.js:80 | after a write, the name holds the new content and every other name is untouched |
| Disk.WriteFiles | bin/generate-plantuml-svgs.js:83-84 | every file the renderer writes exists afterwards and holds the content last written to its name; names it did not write are untouched |
| Disk.RemoveFile | bin/generate-plantuml-svgs.js:91 | the removed name is gone and every other name is untouched |
| Disk.SvgNames | bin/generate-plantuml-svgs.js:87 | the listing holds exactly the names present that end in `.svg`, each once |
| Disk.UnlinkExisting | bin/generate-plantuml-svgs.js:96-101 | every listed name is gone afterwards and every other name is untouched |
| Disk.FirstListed | bin/generate-plantuml-svgs.js:90 | `generatedFiles[0]` is one of the listed names and sorts no later than any of them |
| Disk.NameLeAntisymmetric | bin/generate-plantuml-svgs.js:87 | the listing order ranks no two different names equally |
| Disk.NameLeTotal | bin/generate-plantuml-svgs.js:87 | any two names are comparable in the listing order |
| Disk.NameLeTransitive | bin/generate-plantuml-svgs.js:87 | the listing order is transitive |
| Render.ArtifactName | bin/generate-plantuml-svgs.js:60-62 | a block's published file is an `.svg` name from which the page's base name and the block's fingerprint can be read back |
| Render.StagedName | bin/generate-plantuml-svgs.js:71 | the staged input's name is the block's eight lowercase hex fingerprint characters followed by `.puml` |
| Render.ProcessBlock | bin/generate-plantuml-svgs.js:59-110 | a hit returns the public path and changes nothing; a miss runs the renderer once on the block text; the result is `null` exactly on a miss whose render failed; published files are never removed or rewritten, and only the block's own name can appear |
| Render.Relocate | bin/generate-plantuml-svgs.js:87-102 | after a successful render, published files stay as they were, and only the canonical name can be added |
| Render.RenderPublishesFirstSvg | bin/generate-plantuml-svgs.js:87-104 | a successful render that left SVGs publishes the first listed one under the canonical name, deletes the staged input, leaves no SVG in the output directory, and keeps the other files |
| Render.RenderWithoutSvgPublishesNothing | bin/generate-plantuml-svgs.js:89-104 | a successful render without an SVG returns the path but publishes nothing, and the staged input stays |
| Render.FailedRenderKeepsScratch | bin/generate-plantuml-svgs.js:106-109 | a failed render returns `null`, publishes nothing, and leaves the untrimmed staged input and the renderer's files in place |
| Render.LeftoverSvgIsPublished | bin/generate-plantuml-svgs.js:87-91 | an SVG left in the output directory that sorts before everything the renderer writes is what gets published under the new block's name |
| Render.LeftoverListedFirst | bin/generate-plantuml-svgs.js:87-90 | such a leftover is the first name the listing returns |
| Driver.JobsOf | bin/generate-plantuml-svgs.js:137-144 | a page's jobs are exactly its extracted blocks, in order, each paired with the page path |
| Driver.CountGenerated | bin/generate-plantuml-svgs.js:133-146 | the count is at most the number of results; it equals it exactly when every result is a path, and is 0 exactly when every result is `null` |
| Driver.Fold | bin/generate-plantuml-svgs.js:143-148 | the `forEach` over the jobs, for any block handler: one result per job |
| Driver.FoldResultAt | bin/generate-plantuml-svgs.js:143-148 | the result of job `i` is what the handler returns on the state the first `i` jobs left behind |
| Driver.RunJobs | bin/generate-plantuml-svgs.js:143-148 | the loop with `processPlantUMLBlock` as handler: one result per block, each either `null` or that block's own public path |
| Driver.PageJobs | bin/generate-plantuml-svgs.js:143-144 | a page's jobs are its extracted blocks, in order, each handed to the block handler with the page path |
| Driver.FoldExtendsLog | bin/generate-plantuml-svgs.js:143-148 | for any block handler that only appends its renderer runs to the log, a run of the loop only appends to the log |
| Driver.FoldCount | bin/generate-plantuml-svgs.js:143-148 | for any block handler that runs the renderer at most once per block and returns `null` only on a failed run, the count is the number of blocks minus the failed runs |
| Driver.FoldAppend | bin/generate-plantuml-svgs.js:135-149 | handling two job lists one after the other is handling their concatenation |
| Driver.CountIsBlocksMinusFailedRuns | bin/generate-plantuml-svgs.js:143-148 | every block gets a result; the renderer log only grows; the count plus the number of failed renderer runs equals the number of blocks, so hits and renders without SVGs count |
| Driver.RunKeepsPublished | bin/generate-plantuml-svgs.js:66-104 | a run never removes or rewrites a published file |
| Driver.AllHitsChangeNothing | bin/generate-plantuml-svgs.js:66-68 | when every block's file already exists, a run leaves the whole state unchanged, with no renderer run, and counts every block |
| Driver.RunPublishesEverything | bin/generate-plantuml-svgs.js:87-91 | with a renderer that always succeeds with an SVG, one run publishes every block's file |
| Driver.FoldPublishesNonNull | bin/generate-plantuml-svgs.js:143-148 | for any handler that keeps published files and publishes a job's file whenever it returns a path, every job whose result is a path has its file published at the end of the loop |
| Driver.PipelinePublishesOnSuccess | bin/generate-plantuml-svgs.js:66-109 | with a renderer that leaves an SVG whenever it exits cleanly, `processPlantUMLBlock` returns a path only when the block's file is published afterwards |
| Driver.RunPublishesEveryNonNull | bin/generate-plantuml-svgs.js:143-148 | failure isolation for files: with a renderer that may fail but leaves an SVG whenever it exits cleanly, every block whose result is a path has its file published at the end of the run, whichever other blocks failed |
| Driver.RerunRendersNothing | bin/generate-plantuml-svgs.js:66-68 | after such a run, a second run makes no renderer call, changes nothing and counts every block |
| Driver.SameDiagramSharesArtifact | bin/generate-plantuml-svgs.js:60-62 | blocks that trim to the same text on pages with the same base name share one output file |
| Driver.SvgRenderPublishes | bin/generate-plantuml-svgs.js:87-91 | a miss whose render succeeds with an SVG publishes the block's file |
| Driver.ProcessJobs | bin/generate-plantuml-svgs.js:143-148 | the per-block loop returns the count and final state of handling the page's blocks in order |
| Driver.ProcessPages | bin/generate-plantuml-svgs.js:135-149 | the per-page loop, skipping pages without blocks, returns the count and final state of handling all blocks of all pages in order |
| Driver.GenerateSvgsOnly | bin/generate-plantuml-svgs.js:133-149 | the count and final state are those of running `processPlantUMLBlock` on every block of every page in order |

## Left out

- The recursive walk of `content/`, reading the files, and all console
  output (lines 113-131, 136, 141, 151). These are I/O; the pages are given
  as (path, text) pairs in walk order.
- The start-up `mkdirSync` calls, `ensurePlantUMLJar` and `main`
  (lines 15-27, 155-166). These are environment preconditions.
- `bin/setup-plantuml.js`, which downloads the renderer and edits
  `.gitignore`. It is environment setup and is not part of this model.
- SHA-256 and the renderer process are parameters, not implementations.
  The renderer's behaviour is any function of its input and its run number.
- File-system calls other than the renderer (`mkdirSync`, `writeFileSync`,
  `renameSync`, `unlinkSync`) are assumed not to throw. Only a failed
  renderer run reaches the `catch` branch.
- The directory listing order is assumed to be code-point order of names.
  On Unix, `readdirSync` goes through libuv's `scandir`, which sorts names
  with `strcmp`; UTF-8 byte order is code-point order. The listing order on
  Windows is not modelled.
- Strings are sequences of code points. JavaScript indexes UTF-16 code
  units, so `match.index` differs from the model's index on pages with
  characters outside the Basic Multilingual Plane.
- Naming.BaseName: models the POSIX `path.basename` only, for paths that
  do not end in `/`. The walk only yields paths ending in `.md`. On
  Windows, `\` also separates segments; that is not modelled.
- `blockIndex`, the unused third argument of `processPlantUMLBlock`, is
  dropped.

=== FILE: disk.dfy ===
/** The file system as the pipeline sees it: the published diagram directory
    `static/diagrams`, the staging directory `temp/plantuml` and the
    renderer's output directory `temp/plantuml/output`. */
module Disk {
  import opened Wrappers
  import opened Text
  import Naming

  datatype ScratchFile = ScratchFile(name: string, content: string)

  /** `diagrams`: the files of `static/diagrams` by name (the cache);
      `temp`: the files of `temp/plantuml` by name (the staged inputs);
      `scratchDir`: whether `temp/plantuml/output` exists;
      `scratch`: the entries of `temp/plantuml/output`. */
  datatype FileSystem = FileSystem(
    diagrams: map<string, string>,
    temp: map<string, string>,
    scratchDir: bool,
    scratch: seq<ScratchFile>)

  predicate IsSvgName(name: string) {
    EndsWith(name, Naming.SvgExt)
  }

  /** The content of the entry called `name`, if there is one. */
  function Lookup(dir: seq<ScratchFile>, name: string): (r: Option<string>)
    ensures r.Some? <==> exists i :: 0 <= i < |dir| && dir[i].name == name
  {
    if dir == [] then None
    else if dir[0].name == name then Some(dir[0].content)
    else
      var r := Lookup(dir[1..], name);
      assert forall i :: 1 <= i < |dir| ==> dir[i] == dir[1..][i - 1];
      r
  }

  /** Writing one file: its name now holds its content; every other name is
      untouched. */
  function WriteFile(dir: seq<ScratchFile>, f: ScratchFile): (r: seq<ScratchFile>)
    ensures Lookup(r, f.name) == Some(f.content)
    ensures forall n :: n != f.name ==> Lookup(r, n) == Lookup(dir, n)
  {
    if dir == [] then [f]
    else if dir[0].name == f.name then [f] + dir[1..]
    else [dir[0]] + WriteFile(dir[1..], f)
  }

  /** No later write in `fs` has the name `fs[i]` has. */
  predicate IsLastWrite(fs: seq<ScratchFile>, i: int) {
    0 <= i < |fs| && forall k :: i < k < |fs| ==> fs[k].name != fs[i].name
  }

  /** The files a renderer run writes, in the order it writes them: each
      name holds what was last written to it, and names not written keep
      their old content. */
  function WriteFiles(dir: seq<ScratchFile>, fs: seq<ScratchFile>): (r: seq<ScratchFile>)
    ensures forall i :: 0 <= i < |fs| ==> Lookup(r, fs[i].name).Some?
    ensures forall i :: IsLastWrite(fs, i) ==> Lookup(r, fs[i].name) == Some(fs[i].content)
    ensures forall n :: (forall i :: 0 <= i < |fs| ==> fs[i].name != n) ==> Lookup(r, n) == Lookup(dir, n)
    decreases |fs|
  {
    if fs == [] then dir
    else
      var init := fs[..|fs| - 1];
      var before := WriteFiles(dir, init);
      var r := WriteFile(before, fs[|fs| - 1]);
      WritesOneMore(dir, fs, before, r);
      r
  }

  /** `after` is `dir` with the files `fs` written in order: every written
      name exists, holds its last write, and no other name changed. */
  ghost predicate WritesAll(dir: seq<ScratchFile>, fs: seq<ScratchFile>, after: seq<ScratchFile>) {
    && (forall i :: 0 <= i < |fs| ==> Lookup(after, fs[i].name).Some?)
    && (forall i :: IsLastWrite(fs, i) ==> Lookup(after, fs[i].name) == Some(fs[i].content))
    && (forall n :: (forall i :: 0 <= i < |fs| ==> fs[i].name != n) ==> Lookup(after, n) == Lookup(dir, n))
  }

  lemma WritesOneMore(dir: seq<ScratchFile>, fs: seq<ScratchFile>, before: seq<ScratchFile>, after: seq<ScratchFile>)
    requires fs != []
    requires WritesAll(dir, fs[..|fs| - 1], before)
    requires after == WriteFile(before, fs[|fs| - 1])
    ensures WritesAll(dir, fs, after)
  {
    var init := fs[..|fs| - 1];
    var last := fs[|fs| - 1];
    assert forall i :: 0 <= i < |init| ==> init[i] == fs[i];
    forall i | IsLastWrite(fs, i)
      ensures Lookup(after, fs[i].name) == Some(fs[i].content)
    {
      if i < |init| {
        assert IsLastWrite(init, i) && fs[i].name != last.name;
      }
    }
  }

  /** A name present after the writes was either present before or written. */
  lemma WrittenOrKept(dir: seq<ScratchFile>, fs: seq<ScratchFile>, n: string)
    requires Lookup(WriteFiles(dir, fs), n).Some?
    ensures Lookup(dir, n).Some? || exists i :: 0 <= i < |fs| && fs[i].name == n
  {
  }

  /** Removing a name (`fs.unlinkSync`, or the source side of
      `fs.renameSync`): the name is gone, every other name is untouched. */
  function RemoveFile(dir: seq<ScratchFile>, name: string): (r: seq<ScratchFile>)
    ensures |r| <= |dir|
    ensures Lookup(r, name).None?
    ensures forall n :: n != name ==> Lookup(r, n) == Lookup(dir, n)
  {
    if dir == [] then []
    else if dir[0].name == name then RemoveFile(dir[1..], name)
    else [dir[0]] + RemoveFile(dir[1..], name)
  }

  /** The names that `readdirSync(...).filter(f => f.endsWith('.svg'))`
      returns, each once. */
  function SvgNames(dir: seq<ScratchFile>): (names: seq<string>)
    ensures forall n :: n in names <==> IsSvgName(n) && Lookup(dir, n).Some?
    ensures forall i, j :: 0 <= i < j < |names| ==> names[i] != names[j]
    decreases |dir|
  {
    if dir == [] then []
    else
      var rest := SvgNames(RemoveFile(dir[1..], dir[0].name));
      assert dir[0].name !in rest;
      if IsSvgName(dir[0].name) then
        assert forall j :: 0 < j < |rest| + 1 ==> ([dir[0].name] + rest)[j] == rest[j - 1];
        [dir[0].name] + rest
      else rest
  }

  /** `generatedFiles.forEach(f => { if (fs.existsSync(...)) fs.unlinkSync(...) })`:
      each listed name that still exists is removed; the existence check is
      what keeps the already moved first file from making `unlinkSync` throw. */
  function UnlinkExisting(dir: seq<ScratchFile>, names: seq<string>): (r: seq<ScratchFile>)
    ensures forall n :: n in names ==> Lookup(r, n).None?
    ensures forall n :: n !in names ==> Lookup(r, n) == Lookup(dir, n)
    decreases names
  {
    if names == [] then dir
    else
      var dir' := if Lookup(dir, names[0]).Some? then RemoveFile(dir, names[0]) else dir;
      UnlinkExisting(dir', names[1..])
  }

  // ---- the order `readdirSync` lists names in ----

  /** Lexicographic order on code points, the order in which the directory
      listing returns names (libuv sorts them with `strcmp`, and UTF-8 byte
      order is code point order). */
  predicate NameLe(a: string, b: string) {
    a == [] || (b != [] && (a[0] < b[0] || (a[0] == b[0] && NameLe(a[1..], b[1..]))))
  }

  lemma {:induction false} NameLeReflexive(a: string)
    ensures NameLe(a, a)
  {
    if a != [] {
      NameLeReflexive(a[1..]);
    }
  }

  lemma {:induction false} NameLeAntisymmetric(a: string, b: string)
    requires NameLe(a, b) && NameLe(b, a)
    ensures a == b
  {
    if a != [] && b != [] {
      NameLeAntisymmetric(a[1..], b[1..]);
      assert a == [a[0]] + a[1..] && b == [b[0]] + b[1..];
    }
  }

  lemma {:induction false} NameLeTotal(a: string, b: string)
    ensures NameLe(a, b) || NameLe(b, a)
  {
    if a != [] && b != [] && a[0] == b[0] {
      NameLeTotal(a[1..], b[1..]);
    }
  }

  lemma {:induction false} NameLeTransitive(a: string, b: string, c: string)
    requires NameLe(a, b) && NameLe(b, c)
    ensures NameLe(a, c)
  {
    if a != [] && b != [] && c != [] && a[0] == b[0] && b[0] == c[0] {
      NameLeTransitive(a[1..], b[1..], c[1..]);
    }
  }

  /** `generatedFiles[0]`: the least name of a non-empty listing. */
  function FirstListed(names: seq<string>): (m: string)
    requires names != []
    ensures m in names
    ensures forall n :: n in names ==> NameLe(m, n)
  {
    NameLeReflexive(names[0]);
    if |names| == 1 then names[0]
    else
      var m := FirstListed(names[1..]);
      NameLeTotal(names[0], m);
      assert forall n :: n in names[1..] && NameLe(names[0], m) ==> NameLe(names[0], n) by {
        forall n | n in names[1..] && NameLe(names[0], m) {
          NameLeTransitive(names[0], m, n);
        }
      }
      assert forall n :: n in names ==> n == names[0] || n in names[1..];
      if NameLe(names[0], m) then names[0] else m
  }
}

=== FILE: driver.dfy ===
/** The per-block loop of `generateSVGsOnly` (bin/generate-plantuml-svgs.js):
    every block of every page goes through `processPlantUMLBlock` in order,
    and the count goes up for every result that is not `null`. The pages are
    given as (path, text) pairs instead of being found and read from disk.

    The loop is first stated for any block processor (`Fold`), and the facts
    about `processPlantUMLBlock` that the loop's properties rest on are
    stated once per step (`Logged`, `KeepsPublished`, `HitsAreFree`,
    `PublishesOwn`, `SuccessPublishesOwn`). */
module Driver {
  import opened Wrappers
  import opened Text
  import opened Fingerprint
  import opened Shortcodes
  import opened Naming
  import opened Disk
  import opened Render

  datatype Document = Document(path: string, text: string)

  /** One block together with the page it came from. */
  datatype Job = Job(path: string, block: Block)

  /** The results so far and the state after them. */
  datatype Run = Run(results: seq<Option<string>>, state: State)

  /** What handles one block. */
  type Processor = (State, Job) -> Step

  /** The jobs of a page with path `path`: each of its blocks, in order,
      handed to the block handler together with the page path. */
  function PageJobs(path: string, blocks: seq<Block>): (jobs: seq<Job>)
    ensures |jobs| == |blocks|
    ensures forall i :: 0 <= i < |jobs| ==> jobs[i].path == path && jobs[i].block == blocks[i]
  {
    if blocks == [] then []
    else [Job(path, blocks[0])] + PageJobs(path, blocks[1..])
  }

  /** The blocks of one page, in document order. */
  function JobsOf(doc: Document): (jobs: seq<Job>)
    ensures var blocks := ExtractPlantUmlShortcodes(doc.text);
      && |jobs| == |blocks|
      && forall i :: 0 <= i < |jobs| ==> jobs[i] == Job(doc.path, blocks[i])
  {
    PageJobs(doc.path, ExtractPlantUmlShortcodes(doc.text))
  }

  /** The blocks of each page, page by page. */
  function Pages(docs: seq<Document>): (pages: seq<seq<Job>>)
    ensures |pages| == |docs|
  {
    seq(|docs|, i requires 0 <= i < |docs| => JobsOf(docs[i]))
  }

  /** The jobs of the pages, one page after the other. */
  function Concat(pages: seq<seq<Job>>): seq<Job> {
    if pages == [] then [] else pages[0] + Concat(pages[1..])
  }

  /** The blocks of all pages, page after page. */
  function Jobs(docs: seq<Document>): seq<Job> {
    Concat(Pages(docs))
  }

  /** Handling the jobs in order, threading the state through. */
  function Fold(st: State, process: Processor, jobs: seq<Job>): (r: Run)
    ensures |r.results| == |jobs|
    decreases |jobs|
  {
    if jobs == [] then Run([], st)
    else
      var step := process(st, jobs[0]);
      var rest := Fold(step.state, process, jobs[1..]);
      Run([step.result] + rest.results, rest.state)
  }

  /** `processPlantUMLBlock(block, filePath)` as a processor. */
  function Pipeline(sha256: Sha256, renderer: Renderer): Processor {
    (s: State, j: Job) => ProcessBlock(s, sha256, renderer, j.block, j.path)
  }

  /** The loop with `processPlantUMLBlock` as the handler: one result per
      block, each either `null` or that block's own public path. */
  function RunJobs(st: State, sha256: Sha256, renderer: Renderer, jobs: seq<Job>): (r: Run)
    ensures |r.results| == |jobs|
    ensures forall i :: 0 <= i < |jobs| ==>
      r.results[i] == None || r.results[i] == Some(PublicPath(ArtifactName(sha256, jobs[i].block, jobs[i].path)))
  {
    var process := Pipeline(sha256, renderer);
    assert forall i :: 0 <= i < |jobs| ==>
      Fold(st, process, jobs).results[i] == None
      || Fold(st, process, jobs).results[i] == Some(PublicPath(ArtifactName(sha256, jobs[i].block, jobs[i].path)))
    by {
      forall i | 0 <= i < |jobs|
        ensures Fold(st, process, jobs).results[i] == None
          || Fold(st, process, jobs).results[i] == Some(PublicPath(ArtifactName(sha256, jobs[i].block, jobs[i].path)))
      {
        FoldResultAt(st, process, jobs, i);
        var s := Fold(st, process, jobs[..i]).state;
        assert process(s, jobs[i]) == ProcessBlock(s, sha256, renderer, jobs[i].block, jobs[i].path);
      }
    }
    Fold(st, process, jobs)
  }

  /** `generatedCount`: the number of results that are not `null`. */
  function CountGenerated(results: seq<Option<string>>): (n: nat)
    ensures n <= |results|
    ensures n == |results| <==> forall i :: 0 <= i < |results| ==> results[i].Some?
    ensures n == 0 <==> forall i :: 0 <= i < |results| ==> results[i].None?
  {
    if results == [] then 0
    else
      var init := results[..|results| - 1];
      assert forall i :: 0 <= i < |init| ==> init[i] == results[i];
      CountGenerated(init) + (if results[|results| - 1].Some? then 1 else 0)
  }

  /** The renderer runs in `log[from..]` that failed. */
  function FailedRuns(renderer: Renderer, log: seq<string>, from: nat): nat {
    if |log| <= from then 0
    else FailedRuns(renderer, log[..|log| - 1], from)
         + (if renderer(log[|log| - 1], |log| - 1).exitedOk then 0 else 1)
  }

  // ---- the loop, for any processor ----

  /** Handling two job lists one after the other is handling their
      concatenation. */
  lemma {:induction false} FoldAppend(st: State, process: Processor, a: seq<Job>, b: seq<Job>)
    ensures var first := Fold(st, process, a);
      var second := Fold(first.state, process, b);
      Fold(st, process, a + b) == Run(first.results + second.results, second.state)
    decreases |a|
  {
    if a != [] {
      assert (a + b)[0] == a[0];
      assert (a + b)[1..] == a[1..] + b;
      FoldAppend(process(st, a[0]).state, process, a[1..], b);
    } else {
      assert a + b == b;
    }
  }

  lemma FoldSnoc(st: State, process: Processor, jobs: seq<Job>, job: Job)
    ensures var r := Fold(st, process, jobs);
      Fold(st, process, jobs + [job]) == Run(r.results + [process(r.state, job).result], process(r.state, job).state)
  {
    FoldAppend(st, process, jobs, [job]);
    var r := Fold(st, process, jobs);
    assert Fold(r.state, process, [job]) == Run([process(r.state, job).result], process(r.state, job).state) by {
      assert [job][1..] == [];
    }
  }

  /** The result of job `i` is what the handler returns on the state the
      first `i` jobs left behind. */
  lemma FoldResultAt(st: State, process: Processor, jobs: seq<Job>, i: nat)
    requires i < |jobs|
    ensures Fold(st, process, jobs).results[i] == process(Fold(st, process, jobs[..i]).state, jobs[i]).result
  {
    assert jobs == jobs[..i + 1] + jobs[i + 1..];
    FoldAppend(st, process, jobs[..i + 1], jobs[i + 1..]);
    assert jobs[..i + 1] == jobs[..i] + [jobs[i]];
    FoldSnoc(st, process, jobs[..i], jobs[i]);
  }

  lemma {:induction false} CountGeneratedAppend(a: seq<Option<string>>, b: seq<Option<string>>)
    ensures CountGenerated(a + b) == CountGenerated(a) + CountGenerated(b)
    decreases |b|
  {
    if b != [] {
      assert (a + b)[..|a + b| - 1] == a + b[..|b| - 1];
      CountGeneratedAppend(a, b[..|b| - 1]);
    } else {
      assert a + b == a;
    }
  }

  /** Failed runs over a log split at `mid` add up. */
  lemma {:induction false} FailedRunsSplit(renderer: Renderer, log: seq<string>, from: nat, mid: nat)
    requires from <= mid <= |log|
    ensures FailedRuns(renderer, log, from)
            == FailedRuns(renderer, log[..mid], from) + FailedRuns(renderer, log, mid)
    decreases |log|
  {
    if |log| > mid {
      assert log[..|log| - 1][..mid] == log[..mid];
      FailedRunsSplit(renderer, log[..|log| - 1], from, mid);
    } else {
      assert log[..mid] == log;
    }
  }

  /** One step either is free (no renderer run, a path returned) or runs the
      renderer once on the block text and returns `null` exactly when that
      run failed. */
  predicate LogsStep(renderer: Renderer, s: State, j: Job, out: Step) {
    if out.state.renders == s.renders then out.result.Some?
    else
      && out.state.renders == s.renders + [j.block.content]
      && (out.result.None? <==> !renderer(j.block.content, |s.renders|).exitedOk)
  }

  ghost predicate Logged(process: Processor, renderer: Renderer) {
    forall s, j :: LogsStep(renderer, s, j, process(s, j))
  }

  /** For a processor that logs its renderer runs, a run of the loop only
      appends to the log. */
  lemma {:induction false} FoldExtendsLog(st: State, process: Processor, renderer: Renderer, jobs: seq<Job>)
    requires Logged(process, renderer)
    ensures var log := Fold(st, process, jobs).state.renders;
      |st.renders| <= |log| && log[..|st.renders|] == st.renders
    decreases |jobs|
  {
    if jobs != [] {
      var step := process(st, jobs[0]);
      assert LogsStep(renderer, st, jobs[0], step);
      FoldExtendsLog(step.state, process, renderer, jobs[1..]);
      var log := Fold(step.state, process, jobs[1..]).state.renders;
      assert log[..|step.state.renders|][..|st.renders|] == log[..|st.renders|];
    }
  }

  /** ... and the count is the number of jobs minus the number of failed
      renderer runs. */
  lemma {:induction false} FoldCount(st: State, process: Processor, renderer: Renderer, jobs: seq<Job>)
    requires Logged(process, renderer)
    ensures var r := Fold(st, process, jobs);
      CountGenerated(r.results) + FailedRuns(renderer, r.state.renders, |st.renders|) == |jobs|
    decreases |jobs|
  {
    if jobs != [] {
      var step := process(st, jobs[0]);
      assert LogsStep(renderer, st, jobs[0], step);
      var rest := Fold(step.state, process, jobs[1..]);
      FoldCount(step.state, process, renderer, jobs[1..]);
      FoldExtendsLog(step.state, process, renderer, jobs[1..]);
      CountGeneratedAppend([step.result], rest.results);
      assert CountGenerated([step.result]) == if step.result.Some? then 1 else 0 by {
        assert [step.result][..0] == [];
      }
      var log := rest.state.renders;
      FailedRunsSplit(renderer, log, |st.renders|, |step.state.renders|);
      if step.state.renders != st.renders {
        assert log[..|step.state.renders|][..|st.renders|] == st.renders;
      }
    }
  }

  /** Published files stay published, with the same content. */
  predicate Keeps(s: State, out: Step) {
    forall n :: n in s.fs.diagrams ==> n in out.state.fs.diagrams && out.state.fs.diagrams[n] == s.fs.diagrams[n]
  }

  ghost predicate KeepsPublished(process: Processor) {
    forall s, j :: Keeps(s, process(s, j))
  }

  lemma {:induction false} FoldKeeps(st: State, process: Processor, jobs: seq<Job>)
    requires KeepsPublished(process)
    ensures Keeps(st, Step(None, Fold(st, process, jobs).state))
    decreases |jobs|
  {
    if jobs != [] {
      var step := process(st, jobs[0]);
      assert Keeps(st, step);
      FoldKeeps(step.state, process, jobs[1..]);
    }
  }

  /** A job whose artifact is already published changes nothing and yields
      its path. */
  predicate HitIsFree(sha256: Sha256, s: State, j: Job, out: Step) {
    var name := ArtifactName(sha256, j.block, j.path);
    name in s.fs.diagrams ==> out == Step(Some(PublicPath(name)), s)
  }

  ghost predicate HitsAreFree(process: Processor, sha256: Sha256) {
    forall s, j :: HitIsFree(sha256, s, j, process(s, j))
  }

  /** Every job's artifact is in the published directory. */
  ghost predicate AllPublished(fs: FileSystem, sha256: Sha256, jobs: seq<Job>) {
    forall i :: 0 <= i < |jobs| ==> ArtifactName(sha256, jobs[i].block, jobs[i].path) in fs.diagrams
  }

  lemma {:induction false} FoldOfHits(st: State, process: Processor, sha256: Sha256, jobs: seq<Job>)
    requires HitsAreFree(process, sha256)
    requires AllPublished(st.fs, sha256, jobs)
    ensures var r := Fold(st, process, jobs);
      && r.state == st
      && CountGenerated(r.results) == |jobs|
    decreases |jobs|
  {
    if jobs != [] {
      assert ArtifactName(sha256, jobs[0].block, jobs[0].path) in st.fs.diagrams;
      var step := process(st, jobs[0]);
      assert HitIsFree(sha256, st, jobs[0], step);
      assert AllPublished(st.fs, sha256, jobs[1..]) by {
        forall i | 0 <= i < |jobs| - 1
          ensures ArtifactName(sha256, jobs[1..][i].block, jobs[1..][i].path) in st.fs.diagrams
        {
          assert jobs[1..][i] == jobs[i + 1];
        }
      }
      FoldOfHits(st, process, sha256, jobs[1..]);
      var rest := Fold(st, process, jobs[1..]);
      CountGeneratedAppend([step.result], rest.results);
      assert CountGenerated([step.result]) == 1 by {
        assert [step.result][..0] == [];
      }
    }
  }

  /** Every job handled publishes its own artifact. */
  ghost predicate PublishesOwn(process: Processor, sha256: Sha256) {
    forall s: State, j: Job :: ArtifactName(sha256, j.block, j.path) in process(s, j).state.fs.diagrams
  }

  lemma {:induction false} FoldPublishes(st: State, process: Processor, sha256: Sha256, jobs: seq<Job>)
    requires KeepsPublished(process) && PublishesOwn(process, sha256)
    ensures AllPublished(Fold(st, process, jobs).state.fs, sha256, jobs)
    decreases |jobs|
  {
    if jobs != [] {
      var step := process(st, jobs[0]);
      assert ArtifactName(sha256, jobs[0].block, jobs[0].path) in step.state.fs.diagrams;
      FoldKeeps(step.state, process, jobs[1..]);
      FoldPublishes(step.state, process, sha256, jobs[1..]);
      var final := Fold(st, process, jobs).state.fs;
      forall k | 0 <= k < |jobs|
        ensures ArtifactName(sha256, jobs[k].block, jobs[k].path) in final.diagrams
      {
        if k > 0 {
          assert jobs[k] == jobs[1..][k - 1];
        }
      }
    }
  }

  /** A job that yields a path has its own artifact published. */
  predicate PublishesOnSuccess(sha256: Sha256, j: Job, out: Step) {
    out.result.Some? ==> ArtifactName(sha256, j.block, j.path) in out.state.fs.diagrams
  }

  ghost predicate SuccessPublishesOwn(process: Processor, sha256: Sha256) {
    forall s, j :: PublishesOnSuccess(sha256, j, process(s, j))
  }

  /** Whatever happens to the other jobs, every job that yields a path still
      has its artifact published when the loop ends. */
  lemma {:induction false} FoldPublishesNonNull(st: State, process: Processor, sha256: Sha256, jobs: seq<Job>)
    requires KeepsPublished(process) && SuccessPublishesOwn(process, sha256)
    ensures var r := Fold(st, process, jobs);
      forall i :: 0 <= i < |jobs| && r.results[i].Some? ==>
        ArtifactName(sha256, jobs[i].block, jobs[i].path) in r.state.fs.diagrams
    decreases |jobs|
  {
    if jobs != [] {
      var step := process(st, jobs[0]);
      assert PublishesOnSuccess(sha256, jobs[0], step);
      FoldKeeps(step.state, process, jobs[1..]);
      FoldPublishesNonNull(step.state, process, sha256, jobs[1..]);
      var r := Fold(st, process, jobs);
      var rest := Fold(step.state, process, jobs[1..]);
      forall k | 0 <= k < |jobs| && r.results[k].Some?
        ensures ArtifactName(sha256, jobs[k].block, jobs[k].path) in r.state.fs.diagrams
      {
        if k > 0 {
          assert jobs[k] == jobs[1..][k - 1];
          assert r.results[k] == rest.results[k - 1];
        }
      }
    }
  }

  // ---- what `processPlantUMLBlock` contributes ----

  lemma PipelineLogged(sha256: Sha256, renderer: Renderer)
    ensures Logged(Pipeline(sha256, renderer), renderer)
  {
    forall s: State, j: Job
      ensures LogsStep(renderer, s, j, Pipeline(sha256, renderer)(s, j))
    {
      var out := ProcessBlock(s, sha256, renderer, j.block, j.path);
      assert Pipeline(sha256, renderer)(s, j) == out;
      if ArtifactName(sha256, j.block, j.path) !in s.fs.diagrams {
        assert out.state.renders != s.renders by {
          assert |out.state.renders| == |s.renders| + 1;
        }
      }
    }
  }

  lemma PipelineKeepsPublished(sha256: Sha256, renderer: Renderer)
    ensures KeepsPublished(Pipeline(sha256, renderer))
  {
    forall s: State, j: Job
      ensures Keeps(s, Pipeline(sha256, renderer)(s, j))
    {
      var out := ProcessBlock(s, sha256, renderer, j.block, j.path);
      assert Pipeline(sha256, renderer)(s, j) == out;
    }
  }

  lemma PipelineHitsAreFree(sha256: Sha256, renderer: Renderer)
    ensures HitsAreFree(Pipeline(sha256, renderer), sha256)
  {
    forall s: State, j: Job
      ensures HitIsFree(sha256, s, j, Pipeline(sha256, renderer)(s, j))
    {
      var out := ProcessBlock(s, sha256, renderer, j.block, j.path);
      assert Pipeline(sha256, renderer)(s, j) == out;
    }
  }

  /** A renderer that always exits cleanly and always leaves an SVG. */
  ghost predicate AlwaysRendersSvg(renderer: Renderer) {
    forall input, run :: renderer(input, run).exitedOk
      && exists i :: 0 <= i < |renderer(input, run).wrote| && IsSvgName(renderer(input, run).wrote[i].name)
  }

  lemma PipelinePublishesOwn(sha256: Sha256, renderer: Renderer)
    requires AlwaysRendersSvg(renderer)
    ensures PublishesOwn(Pipeline(sha256, renderer), sha256)
  {
    forall s: State, j: Job
      ensures ArtifactName(sha256, j.block, j.path) in Pipeline(sha256, renderer)(s, j).state.fs.diagrams
    {
      var out := ProcessBlock(s, sha256, renderer, j.block, j.path);
      assert Pipeline(sha256, renderer)(s, j) == out;
      SvgRenderPublishes(s, sha256, renderer, j.block, j.path);
    }
  }

  /** A renderer that leaves an SVG whenever it exits cleanly; it may fail. */
  ghost predicate SvgWhenExitsOk(renderer: Renderer) {
    forall input, run :: renderer(input, run).exitedOk ==>
      exists i :: 0 <= i < |renderer(input, run).wrote| && IsSvgName(renderer(input, run).wrote[i].name)
  }

  lemma PipelinePublishesOnSuccess(sha256: Sha256, renderer: Renderer)
    requires SvgWhenExitsOk(renderer)
    ensures SuccessPublishesOwn(Pipeline(sha256, renderer), sha256)
  {
    forall s: State, j: Job
      ensures PublishesOnSuccess(sha256, j, Pipeline(sha256, renderer)(s, j))
    {
      var out := ProcessBlock(s, sha256, renderer, j.block, j.path);
      assert Pipeline(sha256, renderer)(s, j) == out;
      if renderer(j.block.content, |s.renders|).exitedOk {
        SvgRenderPublishes(s, sha256, renderer, j.block, j.path);
      }
    }
  }

  /** A miss whose render succeeds with an SVG publishes the block's
      artifact. */
  lemma SvgRenderPublishes(st: State, sha256: Sha256, renderer: Renderer, block: Block, filePath: string)
    requires var outcome := renderer(block.content, |st.renders|);
      outcome.exitedOk && exists i :: 0 <= i < |outcome.wrote| && IsSvgName(outcome.wrote[i].name)
    ensures ArtifactName(sha256, block, filePath) in ProcessBlock(st, sha256, renderer, block, filePath).state.fs.diagrams
  {
    if ArtifactName(sha256, block, filePath) !in st.fs.diagrams {
      var outcome := renderer(block.content, |st.renders|);
      var i :| 0 <= i < |outcome.wrote| && IsSvgName(outcome.wrote[i].name);
      assert outcome.wrote[i].name in SvgNames(RenderedScratch(st, renderer, block));
      RenderPublishesFirstSvg(st, sha256, renderer, block, filePath);
    }
  }

  // ---- the properties of the pipeline ----

  /** Failure isolation: every block gets a result whatever happened to the
      blocks before it, and the count is the number of blocks minus the
      number of renderer runs that failed; hits and renders that produced no
      SVG both count. */
  lemma CountIsBlocksMinusFailedRuns(st: State, sha256: Sha256, renderer: Renderer, jobs: seq<Job>)
    ensures var r := RunJobs(st, sha256, renderer, jobs);
      && |r.results| == |jobs|
      && |st.renders| <= |r.state.renders| && r.state.renders[..|st.renders|] == st.renders
      && CountGenerated(r.results) + FailedRuns(renderer, r.state.renders, |st.renders|) == |jobs|
  {
    PipelineLogged(sha256, renderer);
    FoldExtendsLog(st, Pipeline(sha256, renderer), renderer, jobs);
    FoldCount(st, Pipeline(sha256, renderer), renderer, jobs);
  }

  /** Running the pipeline never removes or rewrites a published file. */
  lemma RunKeepsPublished(st: State, sha256: Sha256, renderer: Renderer, jobs: seq<Job>)
    ensures var fs := RunJobs(st, sha256, renderer, jobs).state.fs;
      forall n :: n in st.fs.diagrams ==> n in fs.diagrams && fs.diagrams[n] == st.fs.diagrams[n]
  {
    PipelineKeepsPublished(sha256, renderer);
    FoldKeeps(st, Pipeline(sha256, renderer), jobs);
  }

  /** When every block's artifact already exists, a run renders nothing,
      changes nothing and counts every block. */
  lemma AllHitsChangeNothing(st: State, sha256: Sha256, renderer: Renderer, jobs: seq<Job>)
    requires AllPublished(st.fs, sha256, jobs)
    ensures var r := RunJobs(st, sha256, renderer, jobs);
      && r.state == st
      && CountGenerated(r.results) == |jobs|
  {
    PipelineHitsAreFree(sha256, renderer);
    FoldOfHits(st, Pipeline(sha256, renderer), sha256, jobs);
  }

  /** With a renderer that always succeeds with an SVG, one run publishes
      every block's artifact. */
  lemma RunPublishesEverything(st: State, sha256: Sha256, renderer: Renderer, jobs: seq<Job>)
    requires AlwaysRendersSvg(renderer)
    ensures AllPublished(RunJobs(st, sha256, renderer, jobs).state.fs, sha256, jobs)
  {
    PipelineKeepsPublished(sha256, renderer);
    PipelinePublishesOwn(sha256, renderer);
    FoldPublishes(st, Pipeline(sha256, renderer), sha256, jobs);
  }

  /** Failure isolation for the published files: with a renderer that may
      fail but leaves an SVG whenever it exits cleanly, every block whose
      result is a path has its artifact published at the end of the run,
      whichever other blocks failed. */
  lemma RunPublishesEveryNonNull(st: State, sha256: Sha256, renderer: Renderer, jobs: seq<Job>)
    requires SvgWhenExitsOk(renderer)
    ensures var r := RunJobs(st, sha256, renderer, jobs);
      forall i :: 0 <= i < |jobs| && r.results[i].Some? ==>
        ArtifactName(sha256, jobs[i].block, jobs[i].path) in r.state.fs.diagrams
  {
    PipelineKeepsPublished(sha256, renderer);
    PipelinePublishesOnSuccess(sha256, renderer);
    FoldPublishesNonNull(st, Pipeline(sha256, renderer), sha256, jobs);
  }

  /** Rerunning the pipeline after a run with such a renderer calls the
      renderer zero times, changes no file and counts every block. */
  lemma RerunRendersNothing(st: State, sha256: Sha256, renderer: Renderer, jobs: seq<Job>)
    requires AlwaysRendersSvg(renderer)
    ensures var first := RunJobs(st, sha256, renderer, jobs);
      var second := RunJobs(first.state, sha256, renderer, jobs);
      && second.state == first.state
      && CountGenerated(second.results) == |jobs|
  {
    RunPublishesEverything(st, sha256, renderer, jobs);
    AllHitsChangeNothing(RunJobs(st, sha256, renderer, jobs).state, sha256, renderer, jobs);
  }

  /** Two blocks whose texts trim to the same diagram, on pages with the same
      base name, share one artifact, so once the first is published the
      second is a hit. */
  lemma SameDiagramSharesArtifact(sha256: Sha256, b1: Block, p1: string, b2: Block, p2: string)
    requires Trim(b1.content) == Trim(b2.content)
    requires BaseName(p1, MarkdownExt) == BaseName(p2, MarkdownExt)
    ensures ArtifactName(sha256, b1, p1) == ArtifactName(sha256, b2, p2)
  {
  }

  lemma {:induction false} ConcatAppend(a: seq<seq<Job>>, b: seq<seq<Job>>)
    ensures Concat(a + b) == Concat(a) + Concat(b)
    decreases |a|
  {
    if a != [] {
      assert (a + b)[0] == a[0];
      assert (a + b)[1..] == a[1..] + b;
      ConcatAppend(a[1..], b);
    } else {
      assert a + b == b;
    }
  }

  lemma ConcatSnoc(pages: seq<seq<Job>>, d: nat)
    requires d < |pages|
    ensures Concat(pages[..d + 1]) == Concat(pages[..d]) + pages[d]
  {
    assert pages[..d + 1] == pages[..d] + [pages[d]];
    ConcatAppend(pages[..d], [pages[d]]);
    assert Concat([pages[d]]) == pages[d] by {
      assert [pages[d]][1..] == [];
      assert pages[d] + [] == pages[d];
    }
  }

  /** The pages so far and then one more: the state after the next page,
      and the count as the sum of the two. */
  lemma FoldNextPage(st: State, process: Processor, pages: seq<seq<Job>>, d: nat)
    requires d < |pages|
    ensures var before := Fold(st, process, Concat(pages[..d]));
      var page := Fold(before.state, process, pages[d]);
      var after := Fold(st, process, Concat(pages[..d + 1]));
      && after.state == page.state
      && CountGenerated(after.results) == CountGenerated(before.results) + CountGenerated(page.results)
  {
    ConcatSnoc(pages, d);
    var before := Fold(st, process, Concat(pages[..d]));
    FoldAppend(st, process, Concat(pages[..d]), pages[d]);
    CountGeneratedAppend(before.results, Fold(before.state, process, pages[d]).results);
  }

  /** One more job: the results gain its result and the count goes up
      exactly when that result is a path. */
  lemma FoldStep(st: State, process: Processor, jobs: seq<Job>, i: nat)
    requires i < |jobs|
    ensures var r := Fold(st, process, jobs[..i]);
      var step := process(r.state, jobs[i]);
      var r' := Fold(st, process, jobs[..i + 1]);
      && r'.state == step.state
      && CountGenerated(r'.results) == CountGenerated(r.results) + (if step.result.Some? then 1 else 0)
  {
    assert jobs[..i + 1] == jobs[..i] + [jobs[i]];
    FoldSnoc(st, process, jobs[..i], jobs[i]);
    var r := Fold(st, process, jobs[..i]);
    var step := process(r.state, jobs[i]);
    CountGeneratedAppend(r.results, [step.result]);
    assert CountGenerated([step.result]) == if step.result.Some? then 1 else 0 by {
      assert [step.result][..0] == [];
    }
  }

  /** The inner loop of `generateSVGsOnly`: the block handler on each block
      of a page in turn, counting the results that are paths. */
  method ProcessJobs(jobs: seq<Job>, st0: State, process: Processor)
    returns (count: nat, st: State)
    ensures var r := Fold(st0, process, jobs);
      count == CountGenerated(r.results) && st == r.state
  {
    count := 0;
    st := st0;
    assert jobs[..0] == [];
    for i := 0 to |jobs|
      invariant var r := Fold(st0, process, jobs[..i]);
        count == CountGenerated(r.results) && st == r.state
    {
      FoldStep(st0, process, jobs, i);
      var step := process(st, jobs[i]);
      if step.result.Some? {
        count := count + 1;
      }
      st := step.state;
    }
    assert jobs[..|jobs|] == jobs;
  }

  /** The outer loop of `generateSVGsOnly`: every page in order, adding up
      the pages' counts. A page without blocks is skipped. */
  method ProcessPages(pages: seq<seq<Job>>, st0: State, process: Processor)
    returns (count: nat, st: State)
    ensures var r := Fold(st0, process, Concat(pages));
      count == CountGenerated(r.results) && st == r.state
  {
    count := 0;
    st := st0;
    assert pages[..0] == [];
    for d := 0 to |pages|
      invariant var r := Fold(st0, process, Concat(pages[..d]));
        count == CountGenerated(r.results) && st == r.state
    {
      FoldNextPage(st0, process, pages, d);
      var page := pages[d];
      if |page| == 0 {
        continue;
      }
      var pageCount;
      pageCount, st := ProcessJobs(page, st, process);
      count := count + pageCount;
    }
    assert pages[..|pages|] == pages;
  }

  /** `generateSVGsOnly` with the walk and the reads replaced by `docs`: the
      count and the final state of running `processPlantUMLBlock` on every
      block of every page in order (so `CountIsBlocksMinusFailedRuns`
      applies to its result). */
  method GenerateSvgsOnly(docs: seq<Document>, st0: State, sha256: Sha256, renderer: Renderer)
    returns (generatedCount: nat, st: State)
    ensures var r := RunJobs(st0, sha256, renderer, Jobs(docs));
      generatedCount == CountGenerated(r.results) && st == r.state
  {
    generatedCount, st := ProcessPages(Pages(docs), st0, Pipeline(sha256, renderer));
  }
}

=== FILE: fingerprint.dfy ===
/** The content fingerprint `getContentHash` (bin/generate-plantuml-svgs.js):
    the first eight characters of the hexadecimal SHA-256 digest of the
    trimmed block text. SHA-256 itself is a parameter: any deterministic
    function that returns 64 lowercase hexadecimal characters. */
module Fingerprint {
  import opened Text

  const DigestLength: nat := 64
  const FingerprintLength: nat := 8

  predicate IsLowerHexDigit(c: char) {
    ('0' <= c <= '9') || ('a' <= c <= 'f')
  }

  predicate IsLowerHex(s: string) {
    forall i :: 0 <= i < |s| ==> IsLowerHexDigit(s[i])
  }

  /** What `digest('hex')` of a SHA-256 hash returns. */
  type HexDigest = s: string | |s| == DigestLength && IsLowerHex(s)
    witness seq(64, i => '0')

  /** SHA-256 over the UTF-8 encoding of a string, hex encoded. */
  type Sha256 = string -> HexDigest

  /** `getContentHash`: an eight-character lowercase hexadecimal prefix of the
      digest of the trimmed content. */
  function ContentHash(sha256: Sha256, content: string): (h: string)
    ensures |h| == FingerprintLength && IsLowerHex(h)
    ensures h <= sha256(Trim(content))
  {
    sha256(Trim(content))[..FingerprintLength]
  }

  /** The fingerprint of a block is the fingerprint of its trimmed text: the
      trim performed inside the hash cannot be observed from outside. */
  lemma ContentHashOfTrimmed(sha256: Sha256, content: string)
    ensures ContentHash(sha256, Trim(content)) == ContentHash(sha256, content)
  {
    TrimIdempotent(content);
  }

  /** Texts that differ only in surrounding whitespace share a fingerprint. */
  lemma ContentHashIgnoresPadding(sha256: Sha256, before: string, x: string, after: string)
    requires AllWhitespace(before) && AllWhitespace(after)
    ensures ContentHash(sha256, before + x + after) == ContentHash(sha256, x)
  {
    TrimIgnoresPadding(before, x, after);
  }

  /** The concrete case: `"  A -> B  "` and `"A -> B"` get one fingerprint,
      whatever SHA-256 returns. */
  lemma PaddedArrowSharesFingerprint(sha256: Sha256)
    ensures ContentHash(sha256, "  A -> B  ") == ContentHash(sha256, "A -> B")
  {
    assert AllWhitespace("  ");
    assert "  A -> B  " == "  " + "A -> B" + "  ";
    ContentHashIgnoresPadding(sha256, "  ", "A -> B", "  ");
  }
}

=== FILE: naming.dfy ===
/** How `processPlantUMLBlock` (bin/generate-plantuml-svgs.js) names the
    published diagram: `<basename of the page without .md>-<hash>.svg`, served
    as `/diagrams/<name>`. */
module Naming {
  import opened Wrappers
  import opened Text
  import opened Fingerprint

  const MarkdownExt: string := ".md"
  const SvgExt: string := ".svg"
  const PublicPrefix: string := "/diagrams/"

  /** The text after the last `/`. */
  function LastSegment(p: string): (r: string)
    ensures |r| <= |p| && r == p[|p| - |r|..]
    ensures '/' !in r
    ensures |r| == |p| || p[|p| - |r| - 1] == '/'
  {
    if p == [] || p[|p| - 1] == '/' then []
    else
      var r := LastSegment(p[..|p| - 1]) + [p[|p| - 1]];
      assert p[..|p| - 1][|p| - |r|..] + [p[|p| - 1]] == p[|p| - |r|..];
      r
  }

  /** Node's `path.basename(p, ext)` on a path that does not end in `/`: the
      last segment, without `ext` when it ends with `ext` and is longer than
      it; a path that is exactly `ext` has the empty base name. */
  function BaseName(p: string, ext: string): (r: string)
    ensures '/' !in r
    ensures ext != [] && p == ext ==> r == []
    ensures p != ext || ext == [] ==>
      var seg := LastSegment(p);
      if |seg| > |ext| && EndsWith(seg, ext) then seg == r + ext else r == seg
  {
    if ext != [] && p == ext then []
    else
      var seg := LastSegment(p);
      if |seg| > |ext| && EndsWith(seg, ext) then
        assert seg == seg[..|seg| - |ext|] + ext;
        seg[..|seg| - |ext|]
      else seg
  }

  /** `${fileName}-${hash}.svg`, with `fileName == path.basename(filePath, '.md')`. */
  function OutputName(filePath: string, hash: string): (name: string)
    ensures |hash| == FingerprintLength ==> SplitOutputName(name) == Some((BaseName(filePath, MarkdownExt), hash))
  {
    var base := BaseName(filePath, MarkdownExt);
    assert |hash| == FingerprintLength ==> SplitOutputName(base + "-" + hash + SvgExt) == Some((base, hash)) by {
      if |hash| == FingerprintLength {
        SplitJoin(base, hash);
      }
    }
    base + "-" + hash + SvgExt
  }

  /** The path the page embeds: `/diagrams/${outputName}`. */
  function PublicPath(outputName: string): (r: string)
    ensures |r| == |PublicPrefix| + |outputName|
    ensures r[..|PublicPrefix|] == PublicPrefix && r[|PublicPrefix|..] == outputName
  {
    PublicPrefix + outputName
  }

  /** Reads a base name and an eight-character hash back out of an output
      name. */
  function SplitOutputName(name: string): Option<(string, string)> {
    var n := |name|;
    if n >= |SvgExt| + FingerprintLength + 1 && name[n - |SvgExt|..] == SvgExt
       && name[n - |SvgExt| - FingerprintLength - 1] == '-'
    then Some((name[..n - |SvgExt| - FingerprintLength - 1], name[n - |SvgExt| - FingerprintLength..n - |SvgExt|]))
    else None
  }

  lemma SplitJoin(base: string, hash: string)
    requires |hash| == FingerprintLength
    ensures SplitOutputName(base + "-" + hash + SvgExt) == Some((base, hash))
  {
    var name := base + "-" + hash + SvgExt;
    var n := |name|;
    assert name[n - |SvgExt|..] == SvgExt;
    assert name[n - |SvgExt| - FingerprintLength - 1] == '-';
    assert name[..n - |SvgExt| - FingerprintLength - 1] == base;
    assert name[n - |SvgExt| - FingerprintLength..n - |SvgExt|] == hash;
  }

  /** Different base names or different hashes never share an output name,
      even though base names may themselves contain `-`. */
  lemma OutputNameInjective(p1: string, h1: string, p2: string, h2: string)
    requires |h1| == FingerprintLength && |h2| == FingerprintLength
    requires OutputName(p1, h1) == OutputName(p2, h2)
    ensures BaseName(p1, MarkdownExt) == BaseName(p2, MarkdownExt) && h1 == h2
  {
  }

  /** For the pages the walk finds, `<dir>/<stem>.md`, the base name is the
      stem. */
  lemma BaseNameOfMarkdownPage(dir: string, stem: string)
    requires stem != [] && '/' !in stem
    ensures BaseName(dir + "/" + stem + MarkdownExt, MarkdownExt) == stem
  {
    var p := dir + "/" + stem + MarkdownExt;
    var seg := stem + MarkdownExt;
    assert p == (dir + "/") + seg;
    assert p[|p| - |seg| - 1] == '/';
    assert '/' !in seg;
    SegmentAfterSlash(dir + "/", seg);
    assert seg[..|seg| - |MarkdownExt|] == stem;
  }

  lemma SegmentAfterSlash(dir: string, seg: string)
    requires dir != [] && dir[|dir| - 1] == '/' && '/' !in seg
    ensures LastSegment(dir + seg) == seg
  {
    var p := dir + seg;
    var r := LastSegment(p);
    assert p[|dir|..] == seg;
    assert p[|dir| - 1] == '/';
    assert forall k :: |dir| <= k < |p| ==> p[k] == seg[k - |dir|] && p[k] != '/';
  }
}

=== FILE: render.dfy ===
/** `processPlantUMLBlock` (bin/generate-plantuml-svgs.js): the cache check
    and, on a miss, staging, rendering, relocation of the renderer's output to
    the canonical name and cleanup of the scratch files. The renderer is an
    opaque external program: a parameter that, for each run, either fails or
    succeeds, and leaves any files it likes in the output directory. */
module Render {
  import opened Wrappers
  import opened Fingerprint
  import opened Shortcodes
  import opened Naming
  import opened Disk

  const PumlExt: string := ".puml"

  /** One run of `java -jar plantuml.jar -tsvg -o <output dir> <temp file>`:
      the files it writes into the output directory, and whether it exited
      with status 0 (`execSync` throws otherwise). */
  datatype RenderOutcome = RenderOutcome(wrote: seq<ScratchFile>, exitedOk: bool)

  /** The renderer, applied to the staged input and the number of earlier
      runs; the run number lets consecutive runs on the same input differ. */
  type Renderer = (string, nat) -> RenderOutcome

  /** The file system, and the inputs of every renderer run so far. */
  datatype State = State(fs: FileSystem, renders: seq<string>)

  /** What one block yields: the public path or `null`, and the new state. */
  datatype Step = Step(result: Option<string>, state: State)

  /** The name of a block's published file: the page's base name and the
      block's fingerprint can be read back out of it. */
  function ArtifactName(sha256: Sha256, block: Block, filePath: string): (r: string)
    ensures SplitOutputName(r) == Some((BaseName(filePath, MarkdownExt), ContentHash(sha256, block.content)))
    ensures IsSvgName(r)
  {
    OutputName(filePath, ContentHash(sha256, block.content))
  }

  /** `${hash}.puml`, the staged input in `temp/plantuml`: the block's
      fingerprint followed by `.puml`. */
  function StagedName(sha256: Sha256, block: Block): (r: string)
    ensures |r| == FingerprintLength + |PumlExt|
    ensures r[..FingerprintLength] == ContentHash(sha256, block.content) && IsLowerHex(r[..FingerprintLength])
    ensures r[FingerprintLength..] == PumlExt
  {
    ContentHash(sha256, block.content) + PumlExt
  }

  /** The output directory right after the renderer ran on this block. */
  function RenderedScratch(st: State, renderer: Renderer, block: Block): seq<ScratchFile> {
    WriteFiles(st.fs.scratch, renderer(block.content, |st.renders|).wrote)
  }

  /** Published files are never removed or rewritten, and the only file that
      can appear is `name`. */
  ghost predicate DiagramsGrowBy(before: map<string, string>, after: map<string, string>, name: string) {
    && (forall n :: n in before ==> n in after && after[n] == before[n])
    && (forall n :: n in after && n !in before ==> n == name)
  }

  /** `processPlantUMLBlock(block, filePath)`.

      A hit (the output file exists) returns the public path and touches
      nothing. A miss stages the untrimmed block text, runs the renderer once
      on it, and returns `null` exactly when the renderer failed. Either way
      the path returned is `/diagrams/<base>-<hash>.svg`. */
  function ProcessBlock(st: State, sha256: Sha256, renderer: Renderer, block: Block, filePath: string): (out: Step)
    ensures var name := ArtifactName(sha256, block, filePath);
      && (name in st.fs.diagrams ==> out == Step(Some(PublicPath(name)), st))
      && (name !in st.fs.diagrams ==> out.state.renders == st.renders + [block.content])
      && (out.result.Some? ==> out.result == Some(PublicPath(name)))
      && (out.result.None? <==> name !in st.fs.diagrams && !renderer(block.content, |st.renders|).exitedOk)
      && DiagramsGrowBy(st.fs.diagrams, out.state.fs.diagrams, name)
  {
    var outputName := ArtifactName(sha256, block, filePath);
    var publicPath := PublicPath(outputName);
    if outputName in st.fs.diagrams then
      Step(Some(publicPath), st)
    else
      var tempFile := StagedName(sha256, block);
      var staged := st.fs.(scratchDir := true, temp := st.fs.temp[tempFile := block.content]);
      var input := staged.temp[tempFile];
      var outcome := renderer(input, |st.renders|);
      var rendered := staged.(scratch := WriteFiles(staged.scratch, outcome.wrote));
      var renders := st.renders + [input];
      if !outcome.exitedOk then
        Step(None, State(rendered, renders))
      else
        Step(Some(publicPath), State(Relocate(rendered, outputName, tempFile), renders))
  }

  /** After a successful render: when the output directory lists an SVG,
      the least listed one is moved to `static/diagrams/<outputName>`, the
      staged input is deleted and every listed SVG still present is
      unlinked; when it lists none, nothing happens. */
  function Relocate(fs: FileSystem, outputName: string, tempFile: string): (r: FileSystem)
    ensures outputName !in fs.diagrams ==> DiagramsGrowBy(fs.diagrams, r.diagrams, outputName)
  {
    var generated := SvgNames(fs.scratch);
    if generated == [] then fs
    else
      var first := FirstListed(generated);
      var moved := fs.(
        diagrams := fs.diagrams[outputName := Lookup(fs.scratch, first).value],
        scratch := RemoveFile(fs.scratch, first));
      moved.(
        temp := moved.temp - {tempFile},
        scratch := UnlinkExisting(moved.scratch, generated))
  }

  /** A successful render that left at least one SVG publishes the least
      listed SVG under the canonical name, deletes the staged input and leaves
      no SVG in the output directory; other files there stay as they were. */
  lemma RenderPublishesFirstSvg(st: State, sha256: Sha256, renderer: Renderer, block: Block, filePath: string)
    requires ArtifactName(sha256, block, filePath) !in st.fs.diagrams
    requires renderer(block.content, |st.renders|).exitedOk
    requires SvgNames(RenderedScratch(st, renderer, block)) != []
    ensures var out := ProcessBlock(st, sha256, renderer, block, filePath);
      var scratch := RenderedScratch(st, renderer, block);
      var name := ArtifactName(sha256, block, filePath);
      var first := FirstListed(SvgNames(scratch));
      && out.result == Some(PublicPath(name))
      && name in out.state.fs.diagrams
      && Some(out.state.fs.diagrams[name]) == Lookup(scratch, first)
      && (forall n :: IsSvgName(n) && Lookup(scratch, n).Some? ==> NameLe(first, n))
      && StagedName(sha256, block) !in out.state.fs.temp
      && (forall n :: IsSvgName(n) ==> Lookup(out.state.fs.scratch, n).None?)
      && (forall n :: !IsSvgName(n) ==> Lookup(out.state.fs.scratch, n) == Lookup(scratch, n))
  {
    var scratch := RenderedScratch(st, renderer, block);
    var generated := SvgNames(scratch);
    var first := FirstListed(generated);
    var out := ProcessBlock(st, sha256, renderer, block, filePath);
    var moved := RemoveFile(scratch, first);
    assert out.state.fs.scratch == UnlinkExisting(moved, generated);
    forall n | !IsSvgName(n)
      ensures Lookup(out.state.fs.scratch, n) == Lookup(scratch, n)
    {
      assert n !in generated && n != first;
    }
  }

  /** A successful render that left no SVG moves nothing: the public path is
      still returned, no file is published and the staged input stays. */
  lemma RenderWithoutSvgPublishesNothing(st: State, sha256: Sha256, renderer: Renderer, block: Block, filePath: string)
    requires ArtifactName(sha256, block, filePath) !in st.fs.diagrams
    requires renderer(block.content, |st.renders|).exitedOk
    requires SvgNames(RenderedScratch(st, renderer, block)) == []
    ensures var out := ProcessBlock(st, sha256, renderer, block, filePath);
      && out.result == Some(PublicPath(ArtifactName(sha256, block, filePath)))
      && out.state.fs.diagrams == st.fs.diagrams
      && StagedName(sha256, block) in out.state.fs.temp
      && out.state.fs.temp[StagedName(sha256, block)] == block.content
      && out.state.fs.scratch == RenderedScratch(st, renderer, block)
  {
  }

  /** A failed render returns `null` and leaves everything it produced in
      place: the staged input, which holds the untrimmed block text, and
      whatever the renderer wrote. */
  lemma FailedRenderKeepsScratch(st: State, sha256: Sha256, renderer: Renderer, block: Block, filePath: string)
    requires ArtifactName(sha256, block, filePath) !in st.fs.diagrams
    requires !renderer(block.content, |st.renders|).exitedOk
    ensures var out := ProcessBlock(st, sha256, renderer, block, filePath);
      && out.result.None?
      && out.state.fs.diagrams == st.fs.diagrams
      && out.state.fs.scratchDir
      && StagedName(sha256, block) in out.state.fs.temp
      && out.state.fs.temp[StagedName(sha256, block)] == block.content
      && out.state.fs.scratch == RenderedScratch(st, renderer, block)
  {
  }

  /** The output directory is not emptied before a render, so an SVG left
      behind by an earlier failed render, if its name sorts first, is what
      gets published under the new block's name. */
  lemma LeftoverSvgIsPublished(st: State, sha256: Sha256, renderer: Renderer, block: Block, filePath: string,
                               leftover: string, content: string)
    requires ArtifactName(sha256, block, filePath) !in st.fs.diagrams
    requires renderer(block.content, |st.renders|).exitedOk
    requires IsSvgName(leftover) && Lookup(st.fs.scratch, leftover) == Some(content)
    requires forall f :: f in renderer(block.content, |st.renders|).wrote ==>
      f.name != leftover && NameLe(leftover, f.name)
    requires forall n :: IsSvgName(n) && Lookup(st.fs.scratch, n).Some? ==> NameLe(leftover, n)
    ensures var out := ProcessBlock(st, sha256, renderer, block, filePath);
      var name := ArtifactName(sha256, block, filePath);
      name in out.state.fs.diagrams && out.state.fs.diagrams[name] == content
  {
    LeftoverListedFirst(st.fs.scratch, renderer(block.content, |st.renders|).wrote, leftover, content);
    RenderPublishesFirstSvg(st, sha256, renderer, block, filePath);
  }

  lemma LeftoverListedFirst(dir: seq<ScratchFile>, wrote: seq<ScratchFile>, leftover: string, content: string)
    requires IsSvgName(leftover) && Lookup(dir, leftover) == Some(content)
    requires forall f :: f in wrote ==> f.name != leftover && NameLe(leftover, f.name)
    requires forall n :: IsSvgName(n) && Lookup(dir, n).Some? ==> NameLe(leftover, n)
    ensures var scratch := WriteFiles(dir, wrote);
      && SvgNames(scratch) != []
      && FirstListed(SvgNames(scratch)) == leftover
      && Lookup(scratch, leftover) == Some(content)
  {
    var scratch := WriteFiles(dir, wrote);
    assert forall i :: 0 <= i < |wrote| ==> wrote[i] in wrote;
    assert Lookup(scratch, leftover) == Some(content);
    var generated := SvgNames(scratch);
    assert leftover in generated;
    var first := FirstListed(generated);
    assert NameLe(leftover, first) by {
      if Lookup(dir, first).None? {
        WrittenOrKept(dir, wrote, first);
        var i :| 0 <= i < |wrote| && wrote[i].name == first;
        assert wrote[i] in wrote;
      }
    }
    NameLeAntisymmetric(leftover, first);
  }
}

=== FILE: shortcodes.dfy ===
/** `extractPlantUMLShortcodes` (bin/generate-plantuml-svgs.js): the global
    regular-expression scan

      /\{\{<\s*plantuml[^>]*>\}\}([\s\S]*?)\{\{<\s*\/plantuml\s*>\}\}/g

    followed by the removal of a Markdown code fence around each body.

    The regular expression never needs to backtrack into its greedy parts:
    every `\s*` is followed by a non-whitespace literal and `[^>]*` by `>`, so
    each greedy part stops where the first character it cannot take is. The
    opener and the closer at a position therefore either parse in exactly
    one way or not at all (`OpenerEndIsSpan`, `CloserEndIsSpan`), and the
    lazy body `([\s\S]*?)` ends at the first closer at or after
    the end of the opener. The `g` flag restarts the search at the end of the
    previous match, taking the leftmost position where a match exists. */
module Shortcodes {
  import opened Wrappers
  import opened Text

  const OpenBrace: string := "{{<"
  const OpenName: string := "plantuml"
  const CloseName: string := "/plantuml"
  const CloseBrace: string := ">}}"

  /** Where a greedy `[^c]*` starting at `i` stops: the first `c` at or
      after `i`, if there is one. */
  function FindChar(s: string, c: char, i: nat): (r: Option<nat>)
    requires i <= |s|
    ensures r.Some? ==> i <= r.value < |s| && s[r.value] == c
    ensures forall k :: i <= k < |s| && (r.None? || k < r.value) ==> s[k] != c
    decreases |s| - i
  {
    if i == |s| then None
    else if s[i] == c then Some(i)
    else FindChar(s, c, i + 1)
  }

  /** The opener `{{<\s*plantuml[^>]*>}}` at `p`: the position just after
      it, or None when no opener starts at `p`. */
  function OpenerEnd(s: string, p: nat): (r: Option<nat>)
    ensures r.Some? ==> p + |OpenBrace| + |OpenName| + |CloseBrace| <= r.value <= |s|
  {
    if !OccursAt(s, p, OpenBrace) then None
    else
      var j := SkipWhitespace(s, p + |OpenBrace|);
      if !OccursAt(s, j, OpenName) then None
      else
        match FindChar(s, '>', j + |OpenName|)
        case None => None
        case Some(q) => if OccursAt(s, q, CloseBrace) then Some(q + |CloseBrace|) else None
  }

  /** The closer (`{{<`, whitespace, `/plantuml`, whitespace, `>}}`) at `k`: the position just after
      it, or None when no closer starts at `k`. */
  function CloserEnd(s: string, k: nat): (r: Option<nat>)
    ensures r.Some? ==> k + |OpenBrace| + |CloseName| + |CloseBrace| <= r.value <= |s|
  {
    if !OccursAt(s, k, OpenBrace) then None
    else
      var j := SkipWhitespace(s, k + |OpenBrace|);
      if !OccursAt(s, j, CloseName) then None
      else
        var j' := SkipWhitespace(s, j + |CloseName|);
        if OccursAt(s, j', CloseBrace) then Some(j' + |CloseBrace|) else None
  }

  /** The opener part of the pattern matches exactly `s[p..e]`, split in
      some way into `{{<`, whitespace, `plantuml`, characters other than `>`,
      and `>}}`. */
  ghost predicate IsOpenerSpan(s: string, p: nat, e: nat) {
    exists j: nat :: IsOpenerSplit(s, p, j, e)
  }

  /** ... with `plantuml` starting at `j`. */
  ghost predicate IsOpenerSplit(s: string, p: nat, j: nat, e: nat) {
    && p + |OpenBrace| <= j && j + |OpenName| + |CloseBrace| <= e <= |s|
    && OccursAt(s, p, OpenBrace) && AllWhitespace(s[p + |OpenBrace|..j])
    && OccursAt(s, j, OpenName) && '>' !in s[j + |OpenName|..e - |CloseBrace|]
    && OccursAt(s, e - |CloseBrace|, CloseBrace)
  }

  /** The closer part of the pattern matches exactly `s[k..e]`, split in
      some way into `{{<`, whitespace, `/plantuml`, whitespace and `>}}`. */
  ghost predicate IsCloserSpan(s: string, k: nat, e: nat) {
    exists j: nat :: IsCloserSplit(s, k, j, e)
  }

  /** ... with `/plantuml` starting at `j`. */
  ghost predicate IsCloserSplit(s: string, k: nat, j: nat, e: nat) {
    && k + |OpenBrace| <= j && j + |CloseName| + |CloseBrace| <= e <= |s|
    && OccursAt(s, k, OpenBrace) && AllWhitespace(s[k + |OpenBrace|..j])
    && OccursAt(s, j, CloseName) && AllWhitespace(s[j + |CloseName|..e - |CloseBrace|])
    && OccursAt(s, e - |CloseBrace|, CloseBrace)
  }

  /** Whitespace from `i` followed by a character that is not whitespace is
      the run the greedy `\s*` takes: it cannot stop earlier or later. */
  lemma WhitespaceRunEndsAt(s: string, i: nat, j: nat)
    requires i <= j < |s| && AllWhitespace(s[i..j]) && !IsWhitespace(s[j])
    ensures SkipWhitespace(s, i) == j
  {
    assert forall k :: i <= k < j ==> s[k] == s[i..j][k - i];
  }

  /** The run the greedy `\s*` takes is whitespace. */
  lemma WhitespaceRunIsWhitespace(s: string, i: nat)
    requires i <= |s|
    ensures AllWhitespace(s[i..SkipWhitespace(s, i)])
  {
    var j := SkipWhitespace(s, i);
    assert forall k :: 0 <= k < j - i ==> s[i..j][k] == s[i + k];
  }

  /** The characters `[^c]*` takes, followed by `c`, end at the first `c`. */
  lemma FirstCharAt(s: string, c: char, i: nat, q: nat)
    requires i <= q < |s| && s[q] == c && c !in s[i..q]
    ensures FindChar(s, c, i) == Some(q)
  {
    assert forall k :: i <= k < q ==> s[k] == s[i..q][k - i];
  }

  /** Up to the first `c`, no character is `c`. */
  lemma BeforeFirstChar(s: string, c: char, i: nat)
    requires i <= |s| && FindChar(s, c, i).Some?
    ensures c !in s[i..FindChar(s, c, i).value]
  {
    var q := FindChar(s, c, i).value;
    assert forall k :: 0 <= k < q - i ==> s[i..q][k] == s[i + k];
  }

  /** The opener parses in one way only: `OpenerEnd` finds an end exactly
      when the pattern's opener spans up to it. */
  lemma OpenerEndIsSpan(s: string, p: nat, e: nat)
    ensures OpenerEnd(s, p) == Some(e) <==> IsOpenerSpan(s, p, e)
  {
    if OpenerEnd(s, p) == Some(e) {
      OpenerEndSpans(s, p);
    }
    if IsOpenerSpan(s, p, e) {
      OpenerSpanEnds(s, p, e);
    }
  }

  lemma OpenerEndSpans(s: string, p: nat)
    requires OpenerEnd(s, p).Some?
    ensures IsOpenerSpan(s, p, OpenerEnd(s, p).value)
  {
    var j := SkipWhitespace(s, p + |OpenBrace|);
    WhitespaceRunIsWhitespace(s, p + |OpenBrace|);
    BeforeFirstChar(s, '>', j + |OpenName|);
    assert IsOpenerSplit(s, p, j, OpenerEnd(s, p).value);
  }

  lemma OpenerSpanEnds(s: string, p: nat, e: nat)
    requires IsOpenerSpan(s, p, e)
    ensures OpenerEnd(s, p) == Some(e)
  {
    var j: nat :| IsOpenerSplit(s, p, j, e);
    var q := e - |CloseBrace|;
    FirstOfOccurrence(s, j, OpenName);
    FirstOfOccurrence(s, q, CloseBrace);
    WhitespaceRunEndsAt(s, p + |OpenBrace|, j);
    FirstCharAt(s, '>', j + |OpenName|, q);
    OpenerEndAt(s, p, j, q);
  }

  /** The opener's parts, found where `OpenerEnd` looks for them. */
  lemma OpenerEndAt(s: string, p: nat, j: nat, q: nat)
    requires OccursAt(s, p, OpenBrace) && SkipWhitespace(s, p + |OpenBrace|) == j
    requires OccursAt(s, j, OpenName) && j + |OpenName| <= |s| && FindChar(s, '>', j + |OpenName|) == Some(q)
    requires OccursAt(s, q, CloseBrace)
    ensures OpenerEnd(s, p) == Some(q + |CloseBrace|)
  {
  }

  /** A literal that occurs at `i` starts with the character at `i`. */
  lemma FirstOfOccurrence(s: string, i: nat, lit: string)
    requires OccursAt(s, i, lit) && lit != []
    ensures i < |s| && s[i] == lit[0]
  {
    assert s[i..i + |lit|][0] == s[i];
  }

  /** The closer parses in one way only: `CloserEnd` finds an end exactly
      when the pattern's closer spans up to it. */
  lemma CloserEndIsSpan(s: string, k: nat, e: nat)
    ensures CloserEnd(s, k) == Some(e) <==> IsCloserSpan(s, k, e)
  {
    if CloserEnd(s, k) == Some(e) {
      CloserEndSpans(s, k);
    }
    if IsCloserSpan(s, k, e) {
      CloserSpanEnds(s, k, e);
    }
  }

  lemma CloserEndSpans(s: string, k: nat)
    requires CloserEnd(s, k).Some?
    ensures IsCloserSpan(s, k, CloserEnd(s, k).value)
  {
    var j := SkipWhitespace(s, k + |OpenBrace|);
    WhitespaceRunIsWhitespace(s, k + |OpenBrace|);
    WhitespaceRunIsWhitespace(s, j + |CloseName|);
    assert IsCloserSplit(s, k, j, CloserEnd(s, k).value);
  }

  lemma CloserSpanEnds(s: string, k: nat, e: nat)
    requires IsCloserSpan(s, k, e)
    ensures CloserEnd(s, k) == Some(e)
  {
    var j: nat :| IsCloserSplit(s, k, j, e);
    var q := e - |CloseBrace|;
    FirstOfOccurrence(s, j, CloseName);
    FirstOfOccurrence(s, q, CloseBrace);
    WhitespaceRunEndsAt(s, k + |OpenBrace|, j);
    WhitespaceRunEndsAt(s, j + |CloseName|, q);
    CloserEndAt(s, k, j, q);
  }

  /** The closer's parts, found where `CloserEnd` looks for them. */
  lemma CloserEndAt(s: string, k: nat, j: nat, q: nat)
    requires OccursAt(s, k, OpenBrace) && SkipWhitespace(s, k + |OpenBrace|) == j
    requires OccursAt(s, j, CloseName) && j + |CloseName| <= |s| && SkipWhitespace(s, j + |CloseName|) == q
    requires OccursAt(s, q, CloseBrace)
    ensures CloserEnd(s, k) == Some(q + |CloseBrace|)
  {
  }

  datatype Closer = Closer(start: nat, end: nat)

  /** The lazy body `([\s\S]*?)`: the first closer at or after `k`. */
  function FirstCloser(s: string, k: nat): (r: Option<Closer>)
    ensures r.Some? ==> k <= r.value.start && CloserEnd(s, r.value.start) == Some(r.value.end)
    ensures forall k' :: k <= k' && (r.None? || k' < r.value.start) ==> CloserEnd(s, k').None?
    decreases |s| + 1 - k
  {
    if k > |s| then None
    else if CloserEnd(s, k).Some? then Some(Closer(k, CloserEnd(s, k).value))
    else FirstCloser(s, k + 1)
  }

  /** One match of the regular expression: it starts at `index`, the capture
      group is `s[contentStart..contentEnd]` and the match ends at `end`. */
  datatype RawMatch = RawMatch(index: nat, contentStart: nat, contentEnd: nat, end: nat)

  /** The match that starts at `p`, if any: an opener followed by the first
      closer after it. An opener with no closer anywhere after it matches
      nothing. */
  function MatchAt(s: string, p: nat): (r: Option<RawMatch>)
    ensures r.Some? ==> r.value.index == p
                        && p < r.value.contentStart <= r.value.contentEnd < r.value.end <= |s|
  {
    match OpenerEnd(s, p)
    case None => None
    case Some(cs) =>
      match FirstCloser(s, cs)
      case None => None
      case Some(c) => Some(RawMatch(p, cs, c.start, c.end))
  }

  /** What a match at `p` is, in the terms of the regular expression: the
      body starts right after the opener and stops at the first closer, and
      a position with an opener but no match has no closer after it. */
  lemma MatchAtIsLazy(s: string, p: nat)
    ensures MatchAt(s, p).Some? ==>
      var m := MatchAt(s, p).value;
      && OpenerEnd(s, p) == Some(m.contentStart)
      && CloserEnd(s, m.contentEnd) == Some(m.end)
      && forall k :: m.contentStart <= k < m.contentEnd ==> CloserEnd(s, k).None?
    ensures MatchAt(s, p).None? <==>
      (OpenerEnd(s, p).None? || forall k :: OpenerEnd(s, p).value <= k ==> CloserEnd(s, k).None?)
  {
  }

  // ---- the global scan ----

  /** The scan with the `g` flag does not depend on the pattern: it only
      asks, position by position, whether the pattern matches there. A
      matcher gives that answer for each start position. */
  type Matcher = nat -> Option<RawMatch>

  /** What a match tried at `p` looks like in a text of length `n`: it starts
      at `p`, its capture group lies inside it, and it is not empty. */
  ghost predicate IsMatcher(at: Matcher, n: nat) {
    forall p: nat :: at(p).Some? ==>
      var m := at(p).value;
      m.index == p && p < m.contentStart <= m.contentEnd < m.end <= n
  }

  /** The shortcode pattern's matcher on `s`. */
  function Matches(s: string): (at: Matcher)
    ensures IsMatcher(at, |s|)
  {
    (p: nat) => MatchAt(s, p)
  }

  ghost predicate NoMatchBetween(at: Matcher, lo: nat, hi: nat) {
    forall p: nat :: lo <= p < hi ==> at(p).None?
  }

  ghost predicate NoMatchFrom(at: Matcher, lo: nat) {
    forall p: nat :: lo <= p ==> at(p).None?
  }

  /** One `regex.exec` with `lastIndex == from`: the leftmost match that
      starts at or after `from`. */
  function FindMatch(at: Matcher, n: nat, from: nat): (r: Option<RawMatch>)
    requires IsMatcher(at, n)
    ensures r.Some? ==> from <= r.value.index && at(r.value.index) == r
                        && NoMatchBetween(at, from, r.value.index)
    ensures r.None? ==> NoMatchFrom(at, from)
    decreases n + 1 - from
  {
    if from > n then None
    else if at(from).Some? then at(from)
    else FindMatch(at, n, from + 1)
  }

  /** Where the search for the `i`-th match of `ms` begins. */
  function ScanStart(from: nat, ms: seq<RawMatch>, i: nat): nat
    requires i <= |ms|
  {
    if i == 0 then from else ms[i - 1].end
  }

  /** `ms` is what the global scan from `from` finds: every element is a
      match, each is the leftmost one at or after the end of its predecessor,
      and no match starts after the last one ends. */
  ghost predicate IsLeftmostScan(at: Matcher, from: nat, ms: seq<RawMatch>) {
    && (forall i :: 0 <= i < |ms| ==> at(ms[i].index) == Some(ms[i]))
    && (forall i {:trigger ScanStart(from, ms, i)} :: 0 <= i < |ms| ==> ScanStart(from, ms, i) <= ms[i].index)
    && (forall i {:trigger ScanStart(from, ms, i)} :: 0 <= i < |ms| ==> NoMatchBetween(at, ScanStart(from, ms, i), ms[i].index))
    && NoMatchFrom(at, ScanStart(from, ms, |ms|))
  }

  /** The `while ((match = regex.exec(content)) !== null)` loop, from
      `lastIndex == from`. */
  function ScanFrom(at: Matcher, n: nat, from: nat): (ms: seq<RawMatch>)
    requires IsMatcher(at, n)
    ensures IsLeftmostScan(at, from, ms)
    decreases n + 1 - from
  {
    match FindMatch(at, n, from)
    case None => []
    case Some(m) =>
      var rest := ScanFrom(at, n, m.end);
      ScanCons(at, n, from, m, rest);
      [m] + rest
  }

  /** A leftmost match followed by the leftmost scan from its end is the
      leftmost scan. */
  lemma ScanCons(at: Matcher, n: nat, from: nat, m: RawMatch, rest: seq<RawMatch>)
    requires IsMatcher(at, n)
    requires FindMatch(at, n, from) == Some(m)
    requires IsLeftmostScan(at, m.end, rest)
    ensures IsLeftmostScan(at, from, [m] + rest)
  {
    var ms := [m] + rest;
    forall i | 0 <= i < |ms|
      ensures at(ms[i].index) == Some(ms[i])
      ensures ScanStart(from, ms, i) <= ms[i].index
      ensures NoMatchBetween(at, ScanStart(from, ms, i), ms[i].index)
    {
      if i > 0 {
        assert ms[i] == rest[i - 1];
        assert ScanStart(from, ms, i) == ScanStart(m.end, rest, i - 1);
      }
    }
    assert ScanStart(from, ms, |ms|) == ScanStart(m.end, rest, |rest|) by {
      if rest != [] {
        assert ms[|ms| - 1] == rest[|rest| - 1];
      }
    }
  }

  /** Each match of `ms` starts no earlier than where its search began and
      ends after it starts. */
  ghost predicate SearchesAdvance(from: nat, ms: seq<RawMatch>) {
    forall i {:trigger ScanStart(from, ms, i)} :: 0 <= i < |ms| ==> ScanStart(from, ms, i) <= ms[i].index < ms[i].end
  }

  /** The matches of a leftmost scan come in strictly increasing order of
      position and do not overlap. */
  lemma ScanOrdered(at: Matcher, n: nat, from: nat, ms: seq<RawMatch>)
    requires IsMatcher(at, n) && IsLeftmostScan(at, from, ms)
    ensures forall i :: 0 <= i < |ms| ==> from <= ms[i].index < ms[i].end
    ensures forall i, j :: 0 <= i < j < |ms| ==> ms[i].end <= ms[j].index
  {
    assert SearchesAdvance(from, ms) by {
      forall i | 0 <= i < |ms|
        ensures ScanStart(from, ms, i) <= ms[i].index < ms[i].end
      {
        assert at(ms[i].index) == Some(ms[i]);
      }
    }
    forall i | 0 <= i < |ms|
      ensures from <= ms[i].index < ms[i].end
    {
      OrderedPrefix(from, ms, i);
    }
    forall i, j | 0 <= i < j < |ms|
      ensures ms[i].end <= ms[j].index
    {
      OrderedPrefix(from, ms, j);
    }
  }

  lemma {:induction false} OrderedPrefix(from: nat, ms: seq<RawMatch>, j: nat)
    requires SearchesAdvance(from, ms) && j < |ms|
    ensures from <= ms[j].index < ms[j].end
    ensures forall i :: 0 <= i < j ==> ms[i].end <= ms[j].index
  {
    assert ScanStart(from, ms, j) <= ms[j].index < ms[j].end;
    if j > 0 {
      OrderedPrefix(from, ms, j - 1);
    }
  }

  /** The scan is the only leftmost scan: any sequence of matches with the
      leftmost property is exactly what the loop produces. */
  lemma {:induction false} LeftmostScanUnique(at: Matcher, n: nat, from: nat, ms: seq<RawMatch>)
    requires IsMatcher(at, n) && IsLeftmostScan(at, from, ms)
    ensures ms == ScanFrom(at, n, from)
    decreases n + 1 - from
  {
    var found := FindMatch(at, n, from);
    if ms == [] {
      if found.Some? {
        assert false;
      }
    } else {
      var m := ms[0];
      assert at(m.index) == Some(m);
      assert ScanStart(from, ms, 0) == from;
      if found.None? {
        assert false;
      }
      var f := found.value;
      if f.index < m.index {
        assert false;
      }
      if m.index < f.index {
        assert false;
      }
      assert f == m;
      var rest := ms[1..];
      assert forall i :: 0 <= i <= |rest| ==> ScanStart(m.end, rest, i) == ScanStart(from, ms, i + 1);
      assert IsLeftmostScan(at, m.end, rest);
      LeftmostScanUnique(at, n, m.end, rest);
      assert ms == [m] + rest;
    }
  }

  // ---- the Markdown code fence around a block body ----

  const FenceOpen: string := "```plantuml"
  const FenceClose: string := "\n```"

  /** A prefix that `/^```plantuml\s*\n/` matches: the fence word, then
      whitespace that ends in a line feed. */
  predicate IsFenceOpener(u: string) {
    && |u| > |FenceOpen|
    && u[..|FenceOpen|] == FenceOpen
    && (forall k :: |FenceOpen| <= k < |u| ==> IsWhitespace(u[k]))
    && u[|u| - 1] == '\n'
  }

  /** The last line feed in `t[lo..hi]`. */
  function LastNewline(t: string, lo: nat, hi: nat): (r: Option<nat>)
    requires lo <= hi <= |t|
    ensures r.Some? ==> lo <= r.value < hi && t[r.value] == '\n'
    ensures forall k :: lo <= k < hi && (r.None? || r.value < k) ==> t[k] != '\n'
    decreases hi
  {
    if hi == lo then None
    else if t[hi - 1] == '\n' then Some(hi - 1)
    else LastNewline(t, lo, hi - 1)
  }

  /** `replace(/^```plantuml\s*\n/, '')`. The greedy `\s*` first takes the
      whole whitespace run after the fence word and then gives characters
      back until a line feed follows, so the longest opener prefix is
      removed, and nothing when `t` has none. */
  function StripFenceOpener(t: string): (r: string)
    ensures |r| <= |t| && r == t[|t| - |r|..]
    ensures |r| == |t| || IsFenceOpener(t[..|t| - |r|])
    ensures forall k :: |t| - |r| < k <= |t| ==> !IsFenceOpener(t[..k])
  {
    if !OccursAt(t, 0, FenceOpen) then
      assert forall k :: 0 < k <= |t| && IsFenceOpener(t[..k]) ==> t[..k][..|FenceOpen|] == t[..|FenceOpen|];
      t
    else
      var run := SkipWhitespace(t, |FenceOpen|);
      match LastNewline(t, |FenceOpen|, run)
      case Some(k) =>
        var r := t[k + 1..];
        assert t[..|t| - |r|] == t[..k + 1];
        FenceOpenerEndsInRun(t, run);
        r
      case None =>
        FenceOpenerEndsInRun(t, run);
        t
  }

  /** Any opener prefix of `t` ends with a line feed inside the whitespace run
      that follows the fence word. */
  lemma FenceOpenerEndsInRun(t: string, run: nat)
    requires OccursAt(t, 0, FenceOpen)
    requires |FenceOpen| <= run <= |t|
    requires run == |t| || !IsWhitespace(t[run])
    ensures forall k :: 0 < k <= |t| && IsFenceOpener(t[..k]) ==>
      |FenceOpen| <= k - 1 < run && t[k - 1] == '\n'
  {
    forall k | 0 < k <= |t| && IsFenceOpener(t[..k])
      ensures |FenceOpen| <= k - 1 < run && t[k - 1] == '\n'
    {
    }
  }

  /** `replace(/\n```$/, '')`: one closing fence at the very end. */
  function StripFenceCloser(t: string): (r: string)
    ensures |r| <= |t| && r == t[..|r|]
    ensures EndsWith(t, FenceClose) ==> |r| == |t| - |FenceClose|
    ensures !EndsWith(t, FenceClose) ==> r == t
  {
    if EndsWith(t, FenceClose) then t[..|t| - |FenceClose|] else t
  }

  /** The body cleaning of `extractPlantUMLShortcodes`: at most one opener
      fence removed from the front and at most one closing fence from the end;
      nothing else changes and nothing is trimmed. */
  function StripFence(t: string): (r: string)
    ensures |r| <= |t|
    ensures !OccursAt(t, 0, FenceOpen) && !EndsWith(t, FenceClose) ==> r == t
  {
    StripFenceCloser(StripFenceOpener(t))
  }

  /** Wrapping a diagram in a fence and cleaning it gives the diagram back,
      provided it is not blank and its leading whitespace holds no line feed
      (otherwise the opener's `\s*\n` would eat that whitespace too). */
  lemma StripFenceUnwraps(u: string, x: string)
    requires IsFenceOpener(u)
    requires !AllWhitespace(x)
    requires '\n' !in x[..SkipWhitespace(x, 0)]
    ensures StripFence(u + x + FenceClose) == x
  {
    var t := u + x + FenceClose;
    assert t[..|u|] == u;
    NoLongerOpener(u, x, FenceClose);
    var a := StripFenceOpener(t);
    assert a == x + FenceClose;
    assert EndsWith(a, FenceClose);
    assert a[..|a| - |FenceClose|] == x;
  }

  /** After an opener, a text that is not blank and whose leading
      whitespace holds no line feed stops the opener from growing. */
  lemma NoLongerOpener(u: string, x: string, rest: string)
    requires IsFenceOpener(u)
    requires !AllWhitespace(x)
    requires '\n' !in x[..SkipWhitespace(x, 0)]
    ensures forall k :: |u| < k <= |u + x + rest| ==> !IsFenceOpener((u + x + rest)[..k])
  {
    var t := u + x + rest;
    var lead := SkipWhitespace(x, 0);
    assert lead < |x|;
    forall k | |u| < k <= |t|
      ensures !IsFenceOpener(t[..k])
    {
      if k - 1 < |u| + lead {
        assert t[..k][k - 1] == x[..lead][k - 1 - |u|];
      } else {
        assert t[..k][|u| + lead] == x[lead];
      }
    }
  }

  // ---- blocks ----

  /** One extracted block: the whole shortcode text, the cleaned body and the
      position of the shortcode in the document. */
  datatype Block = Block(fullMatch: string, content: string, index: nat)

  /** `b` is the block the match at `b.index` yields. */
  predicate IsBlockOf(s: string, b: Block) {
    && MatchAt(s, b.index).Some?
    && var m := MatchAt(s, b.index).value;
    && b.fullMatch == s[m.index..m.end]
    && b.content == StripFence(s[m.contentStart..m.contentEnd])
  }

  /** The block a match yields. */
  function BlockOf(s: string, m: RawMatch): Block
    requires m.index <= m.contentStart <= m.contentEnd <= m.end <= |s|
  {
    Block(s[m.index..m.end], StripFence(s[m.contentStart..m.contentEnd]), m.index)
  }

  ghost predicate AllMatches(s: string, ms: seq<RawMatch>) {
    forall i :: 0 <= i < |ms| ==> MatchAt(s, ms[i].index) == Some(ms[i])
  }

  function ToBlocks(s: string, ms: seq<RawMatch>): (bs: seq<Block>)
    requires AllMatches(s, ms)
  {
    seq(|ms|, i requires 0 <= i < |ms| && AllMatches(s, ms) =>
      assert MatchAt(s, ms[i].index) == Some(ms[i]);
      BlockOf(s, ms[i]))
  }

  lemma BlocksOfScan(s: string, ms: seq<RawMatch>)
    requires IsLeftmostScan(Matches(s), 0, ms)
    ensures AllMatches(s, ms)
    ensures var bs := ToBlocks(s, ms);
      && |bs| == |ms|
      && (forall i :: 0 <= i < |bs| ==> IsBlockOf(s, bs[i]))
      && (forall i, j :: 0 <= i < j < |bs| ==> bs[i].index + |bs[i].fullMatch| <= bs[j].index)
      && (bs == [] <==> NoMatchFrom(Matches(s), 0))
  {
    ScanOrdered(Matches(s), |s|, 0, ms);
    forall i | 0 <= i < |ms|
      ensures MatchAt(s, ms[i].index) == Some(ms[i])
    {
      assert Matches(s)(ms[i].index) == Some(ms[i]);
    }
    var bs := ToBlocks(s, ms);
    forall i | 0 <= i < |bs|
      ensures IsBlockOf(s, bs[i])
      ensures bs[i].index == ms[i].index && |bs[i].fullMatch| == ms[i].end - ms[i].index
    {
      assert MatchAt(s, ms[i].index) == Some(ms[i]);
    }
    if ms != [] {
      assert Matches(s)(ms[0].index).Some?;
    }
  }

  /** `extractPlantUMLShortcodes`: the blocks in document order, each the
      block of a match, not overlapping, and none at all exactly when the
      document holds no complete opener/closer pair. */
  function ExtractPlantUmlShortcodes(s: string): (bs: seq<Block>)
    ensures forall i :: 0 <= i < |bs| ==> IsBlockOf(s, bs[i])
    ensures forall i, j :: 0 <= i < j < |bs| ==> bs[i].index + |bs[i].fullMatch| <= bs[j].index
    ensures bs == [] <==> NoMatchFrom(Matches(s), 0)
    ensures exists ms :: IsLeftmostScan(Matches(s), 0, ms) && AllMatches(s, ms) && bs == ToBlocks(s, ms)
  {
    var ms := ScanFrom(Matches(s), |s|, 0);
    BlocksOfScan(s, ms);
    ToBlocks(s, ms)
  }

  /** The blocks of any leftmost scan of the page are what extraction
      returns: no match the `exec` loop would find is left out. */
  lemma ExtractIsTheScan(s: string, ms: seq<RawMatch>)
    requires IsLeftmostScan(Matches(s), 0, ms)
    ensures AllMatches(s, ms) && ExtractPlantUmlShortcodes(s) == ToBlocks(s, ms)
  {
    LeftmostScanUnique(Matches(s), |s|, 0, ms);
    BlocksOfScan(s, ms);
  }
}

=== FILE: text.dfy ===
/** Character classes and the whitespace trimming that JavaScript's
    `String.prototype.trim` performs. The same whitespace set is the regular
    expression class `\s`, so the shortcode scanner uses it too. */
module Text {

  /** ECMAScript WhiteSpace and LineTerminator code points. */
  predicate IsWhitespace(c: char) {
    || c == '\t' || c == '\n' || c == '\U{000B}' || c == '\U{000C}' || c == '\r'
    || c == ' ' || c == '\U{00A0}' || c == '\U{1680}'
    || ('\U{2000}' <= c <= '\U{200A}')
    || c == '\U{2028}' || c == '\U{2029}' || c == '\U{202F}' || c == '\U{205F}'
    || c == '\U{3000}' || c == '\U{FEFF}'
  }

  predicate AllWhitespace(s: string) {
    forall i :: 0 <= i < |s| ==> IsWhitespace(s[i])
  }

  /** Neither the first nor the last character is whitespace. */
  predicate NoEdgeWhitespace(s: string) {
    s == [] || (!IsWhitespace(s[0]) && !IsWhitespace(s[|s| - 1]))
  }

  /** `lit` occurs in `s` starting at position `i`. */
  predicate OccursAt(s: string, i: nat, lit: string) {
    i + |lit| <= |s| && s[i..i + |lit|] == lit
  }

  predicate EndsWith(s: string, suffix: string) {
    |suffix| <= |s| && s[|s| - |suffix|..] == suffix
  }

  /** Where a run of whitespace starting at `i` ends (a greedy `\s*`). */
  function SkipWhitespace(s: string, i: nat): (j: nat)
    requires i <= |s|
    ensures i <= j <= |s|
    ensures forall k :: i <= k < j ==> IsWhitespace(s[k])
    ensures j == |s| || !IsWhitespace(s[j])
    decreases |s| - i
  {
    if i < |s| && IsWhitespace(s[i]) then SkipWhitespace(s, i + 1) else i
  }

  /** Where a run of whitespace ending at `j` begins, going no further back
      than `lo`. */
  function SkipWhitespaceBack(s: string, lo: nat, j: nat): (k: nat)
    requires lo <= j <= |s|
    ensures lo <= k <= j
    ensures forall m :: k <= m < j ==> IsWhitespace(s[m])
    ensures k == lo || !IsWhitespace(s[k - 1])
    decreases j
  {
    if lo < j && IsWhitespace(s[j - 1]) then SkipWhitespaceBack(s, lo, j - 1) else j
  }

  /** `s` is `r` with the whitespace `s[..i]` before it and whitespace after it. */
  predicate PaddedAt(s: string, r: string, i: nat) {
    && i + |r| <= |s| && r == s[i..i + |r|]
    && (forall k :: 0 <= k < i ==> IsWhitespace(s[k]))
    && (forall k :: i + |r| <= k < |s| ==> IsWhitespace(s[k]))
  }

  /** `String.prototype.trim`: `s` is the result with a run of whitespace
      before and after it, and the result has no whitespace at either end. */
  function Trim(s: string): (r: string)
    ensures NoEdgeWhitespace(r)
    ensures exists i :: PaddedAt(s, r, i)
  {
    var i := SkipWhitespace(s, 0);
    var j := SkipWhitespaceBack(s, i, |s|);
    assert PaddedAt(s, s[i..j], i);
    s[i..j]
  }

  /** The trim is the only decomposition of `s` into whitespace, a text
      without whitespace at its ends, and whitespace. */
  lemma TrimUnique(s: string, r: string, i: nat)
    requires PaddedAt(s, r, i) && NoEdgeWhitespace(r)
    ensures Trim(s) == r
  {
    if r != [] {
      assert s[i] == r[0] && s[i + |r| - 1] == r[|r| - 1];
    }
  }

  /** A string whose ends are not whitespace is its own trim. */
  lemma TrimOfUntrimmable(s: string)
    requires NoEdgeWhitespace(s)
    ensures Trim(s) == s
  {
    assert PaddedAt(s, s, 0);
    TrimUnique(s, s, 0);
  }

  /** Trimming twice is trimming once. */
  lemma TrimIdempotent(s: string)
    ensures Trim(Trim(s)) == Trim(s)
  {
    TrimOfUntrimmable(Trim(s));
  }

  /** Surrounding a text with whitespace on either side does not change its
      trim; this is what makes `"  A -> B  "` and `"A -> B"` one diagram. */
  lemma TrimIgnoresPadding(before: string, x: string, after: string)
    requires AllWhitespace(before) && AllWhitespace(after)
    ensures Trim(before + x + after) == Trim(x)
  {
    var r := Trim(x);
    var i: nat :| PaddedAt(x, r, i);
    PaddedBefore(before, x, r, i);
    PaddedAfter(before + x, after, r, |before| + i);
    TrimUnique(before + x + after, r, |before| + i);
  }

  lemma PaddedBefore(w: string, x: string, r: string, i: nat)
    requires AllWhitespace(w) && PaddedAt(x, r, i)
    ensures PaddedAt(w + x, r, |w| + i)
  {
    var s := w + x;
    assert forall k :: |w| <= k < |s| ==> s[k] == x[k - |w|];
    assert s[|w| + i..|w| + i + |r|] == x[i..i + |r|];
  }

  lemma PaddedAfter(x: string, w: string, r: string, i: nat)
    requires AllWhitespace(w) && PaddedAt(x, r, i)
    ensures PaddedAt(x + w, r, i)
  {
    var s := x + w;
    assert forall k :: |x| <= k < |s| ==> s[k] == w[k - |x|];
    assert s[i..i + |r|] == x[i..i + |r|];
  }
}

=== FILE: wrappers.dfy ===
/** The optional value used wherever the source returns `null` or a regex
    search can come back empty. */
module Wrappers {

  datatype Option<+T> = None | Some(value: T)
}
